=== FILE: README.md ===
# GLBinding: the OpenGL binding template of LWJGL, in Dafny

LWJGL generates its Java bindings from Kotlin templates. `GLBinding.kt` is the binding of the
OpenGL module. It decides how each OpenGL template (one extension or one core version, a
*native class*) and each of its functions appear in the generated `GLCapabilities` class.

- **Capability names.** Every template that is not a core-profile class (`GL45C` and the like)
  gets a `public final boolean` field. The field's name is derived by `capName`.
- **Address fields.** Every function of a class with native functions gets a `long` address
  field, unless it is marked `Reuse`. A function's ordinal is the index of its field.
- **Constructor.** The `GLCapabilities` constructor loads every address. Deprecated functions
  without `DependsOn` are set to `NULL` in a forward-compatible context. It then sets every
  capability, either by testing the extension set or by calling a generated `check_` method.
  That method hands the class's entry points to `checkFunctions` in two groups.
- **Presence helpers.** A fixed table of `extension(ext)` helpers is written, and the helper
  methods the generated code needs.
- **Javadoc.** Every GL function gets a javadoc link to its docs.gl reference page. The page
  name comes from the native name by three regular-expression rewrites. Deprecated functions
  get a notice.
- **Link text.** Templates give the `core`, `glx` and `promoted` link texts and the Khronos
  registry link.

## How the model is organised

- `wrappers.dfy`: `Option`, `Result`, and the JVM exceptions the template can raise:
  - `StringIndexOutOfBoundsException` from `substring` or indexing;
  - `NullPointerException` from `!!`;
  - `IllegalStateException` from `registryLink`.

  An exception is an `Err` result, never a precondition.
- `gl_types.dfy`: the generator's `NativeClass` and `Func` as values, with the modifiers the
  binding reads: `DeprecatedGL`, `DependsOn`, `IgnoreMissing`, `Reuse`.
- `text.dfy`, `seqs.dfy`: the string and sequence helpers:
  - Kotlin's `substring` (which throws);
  - digit and upper-case runs, `joinToString`;
  - `filter`, `map`, and a flat-map that stops at the first exception.
- `names.dfy`: `capName`, `isCore`, `core` / `glx` / `promoted` and the `registryLink` overloads.
- `ordinals.dfy`: `functions`, `functionOrdinals` and `getFunctionOrdinal`.
- `entry_points.dfy`: the pieces of the constructor and of the `check_` methods:
  - the address-initialisation rule and the value it stores;
  - the fc-gated and main check groups, and the `printPointer` expression;
  - the value of a generated `check_` method.
- `javadoc.dfy`: `printCustomJavadoc` / `printOpenGLJavaDoc`.
  - The three rewrites `VECTOR_SUFFIX`, `VECTOR_SUFFIX2` and `NAMED` are modelled as the regular
    expressions match. The lazy `(\w+?)` is the shortest word-character stem after which the
    rest of the pattern matches the rest of the name, and the optional `Get`/`n` groups are
    tried first.
  - The comment is rebuilt around the injected link.
- `capabilities.dfy`: `generateJava`.
  - Each part of `GLCapabilities` is first described as a function of the classes.
  - A `JavaWriter` class stands for the `PrintWriter`: its `lines` field holds one element per
    printed line, without indentation. Its methods print the parts step by step with the
    source's loops, and each is proved to print exactly what the describing function says, or
    to fail with the same exception.

## Model

| member | source | states |
|---|---|---|
| Names.CapName | modules/lwjgl/opengl/src/templates/kotlin/opengl/GLBinding.kt:10-18 | the capability name fails (`substring(2)` out of range) exactly for a name that starts with its template prefix, has prefix `GL` and is shorter than two characters |
| Names.CapNameRoundTrip | modules/lwjgl/opengl/src/templates/kotlin/opengl/GLBinding.kt:10-18 | for a GL template whose name starts with `GL`, the capability name starts with `OpenGL` and the template name is recovered from it |
| Names.CapNameInjective | modules/lwjgl/opengl/src/templates/kotlin/opengl/GLBinding.kt:10-18 | two GL templates with different names never share a capability field, whether or not their names start with `GL` |
| Names.CapNameBranches | modules/lwjgl/opengl/src/templates/kotlin/opengl/GLBinding.kt:10-18 | the three branches: a `GL` template starting with its template prefix is `OpenGL` plus its name after two characters; another prefix keeps the name; a name outside its template prefix becomes `prefixTemplate_templateName`, from which the name is read back |
| Names.IsCore | modules/lwjgl/opengl/src/templates/kotlin/opengl/GLBinding.kt:20-22 | the `GL\d\dC` full match; no contract of its own, characterised by `IsCoreExactly` |
| Names.IsCoreExactly | modules/lwjgl/opengl/src/templates/kotlin/opengl/GLBinding.kt:20-22 | `isCore` holds exactly for the five-character names `GL`, two decimal digits, `C` |
| Names.CoreLink | modules/lwjgl/opengl/src/templates/kotlin/opengl/GLBinding.kt:326 | `core` throws exactly when the class name has fewer than four characters, naming index 2 when the third character is missing and index 3 when only the fourth is |
| Names.CoreLinkNamesVersion | modules/lwjgl/opengl/src/templates/kotlin/opengl/GLBinding.kt:326 | for a class `GLxy…` the link reads `OpenGL x.y` |
| Names.GlxLink | modules/lwjgl/opengl/src/templates/kotlin/opengl/GLBinding.kt:327 | `glx` throws exactly when the class name has fewer than five characters, naming index 3 when the fourth character is missing and index 4 when only the fifth is |
| Names.GlxLinkNamesVersion | modules/lwjgl/opengl/src/templates/kotlin/opengl/GLBinding.kt:327 | for a class `GLXxy…` the link reads `GLX x.y` |
| Names.Promoted | modules/lwjgl/opengl/src/templates/kotlin/opengl/GLBinding.kt:328 | `promoted` fails exactly when `core` does, with the same exception, and otherwise wraps the `core` link in `Promoted to core in ….` |
| Names.RegistryGroup | modules/lwjgl/opengl/src/templates/kotlin/opengl/GLBinding.kt:311-314 | a group is a prefix of the name followed by `_`; any other name gives `IllegalStateException` (the exact shape is in the next two rows) |
| Names.RegistryGroupSplits | modules/lwjgl/opengl/src/templates/kotlin/opengl/GLBinding.kt:311-314 | a name that yields a group is that group of one or more upper-case letters, `_`, and one or more word characters |
| Names.RegistryGroupOfName | modules/lwjgl/opengl/src/templates/kotlin/opengl/GLBinding.kt:311-314 | conversely, every such name `GROUP_rest` yields `GROUP` |
| Names.RegistryLink | modules/lwjgl/opengl/src/templates/kotlin/opengl/GLBinding.kt:312-315 | with a postfix, the link is the template's page under that postfix, as `registryLink(templateName)` gives it; without one, the page under the name's group; `IllegalStateException("Non-standard extension name: …")` exactly when the postfix is empty and the name is not `GROUP_rest` |
| Names.RegistryLinkOverloadsAgree | modules/lwjgl/opengl/src/templates/kotlin/opengl/GLBinding.kt:311-324 | for a template `GROUP_name` without postfix, `registryLink` is the page `registryLink(GROUP, name)` and `registryLinkTo(GROUP, name)` name; with postfix `GROUP` it is `registryLink(templateName)` |
| Names.RegistryLinkInGroup | modules/lwjgl/opengl/src/templates/kotlin/opengl/GLBinding.kt:317-318 | `registryLink(group, name)`; no contract of its own, `RegistryLinkOverloadsAgree` ties it to the derived link |
| Names.RegistryLinkToSpec | modules/lwjgl/opengl/src/templates/kotlin/opengl/GLBinding.kt:319-320 | `registryLink(spec)`; no contract of its own, `RegistryLink` and `RegistryLinkOverloadsAgree` state that a template with a postfix links to its own page this way |
| Names.RegistryLinkTo | modules/lwjgl/opengl/src/templates/kotlin/opengl/GLBinding.kt:322-324 | `registryLinkTo(group, name)`; no contract of its own, `RegistryLinkOverloadsAgree` ties it to the derived link |
| Ordinals.Functions | modules/lwjgl/opengl/src/templates/kotlin/opengl/GLBinding.kt:34-41 | no listed function is marked `Reuse`; membership is characterised by `FunctionsMembers` |
| Ordinals.FunctionsMembers | modules/lwjgl/opengl/src/templates/kotlin/opengl/GLBinding.kt:34-41 | a function is listed exactly when it is not `Reuse` and belongs to a class with native functions |
| Ordinals.FunctionOrdinals | modules/lwjgl/opengl/src/templates/kotlin/opengl/GLBinding.kt:43-47 | every ordinal is an index of the list |
| Ordinals.FunctionOrdinalsSpec | modules/lwjgl/opengl/src/templates/kotlin/opengl/GLBinding.kt:43-47 | every listed name has an ordinal; the ordinal indexes a function of that name; no later function has that name (`toMap` keeps the last pair) |
| Ordinals.OrdinalIsIndex | modules/lwjgl/opengl/src/templates/kotlin/opengl/GLBinding.kt:43-49 | with distinct names, the ordinal of each listed function is its own index |
| Ordinals.GetFunctionOrdinal | modules/lwjgl/opengl/src/templates/kotlin/opengl/GLBinding.kt:49 | succeeds exactly when some listed function has the name, then with an index of such a function; otherwise `NullPointerException` |
| EntryPoints.HasDeprecated | modules/lwjgl/opengl/src/templates/kotlin/opengl/GLBinding.kt:109-110 | some function is `DeprecatedGL`; no contract of its own, `MainGroupWithoutDeprecated` and `CheckMethodPassesRequired` state what its absence means for the groups |
| EntryPoints.PointerExpr | modules/lwjgl/opengl/src/templates/kotlin/opengl/GLBinding.kt:133-138 | the `printPointer` text; no contract of its own, characterised by `PointerValueOfDependency` |
| EntryPoints.GroupsDisjoint | modules/lwjgl/opengl/src/templates/kotlin/opengl/GLBinding.kt:140-150 | no function is in both the fc-gated and the main group |
| EntryPoints.GroupsCover | modules/lwjgl/opengl/src/templates/kotlin/opengl/GLBinding.kt:140-150 | a function is checked exactly when it is not `IgnoreMissing` or is deprecated without `DependsOn` |
| EntryPoints.MainGroupWithoutDeprecated | modules/lwjgl/opengl/src/templates/kotlin/opengl/GLBinding.kt:140-150 | without deprecated functions the fc-gated group is empty and the plain `!IgnoreMissing` filter equals the deprecated-aware one |
| EntryPoints.PointerValueOfDependency | modules/lwjgl/opengl/src/templates/kotlin/opengl/GLBinding.kt:118-138 | a `DependsOn` function passes `-1` (never `NULL`) when its dependency is absent and its field whenever it holds; a dependency that is an extension name holds when it is advertised and is written `ext.contains("…") ? name : -1L`; any other reference is a Java expression, holds when that expression does, and is written `ref ? name : -1L`; functions without `DependsOn` pass their field name |
| EntryPoints.FunctionAddressLine | modules/lwjgl/opengl/src/templates/kotlin/opengl/GLBinding.kt:114-116 | `generateFunctionAddress`: the text of the statement that loads the address from `GL.getICD()`; nothing is proved about it |
| EntryPoints.FieldValueRule | modules/lwjgl/opengl/src/templates/kotlin/opengl/GLBinding.kt:203-208 | in a forward-compatible context a deprecated function without `DependsOn` holds `NULL`; every other function holds what the provider returns |
| EntryPoints.ShouldCheckFunctionAddress | modules/lwjgl/opengl/src/templates/kotlin/opengl/GLBinding.kt:112 | every function except a non-deprecated one of `GL11`; no contract of its own, `UncheckedAddressIsProvided` states what skipping the check relies on |
| EntryPoints.UncheckedAddressIsProvided | modules/lwjgl/opengl/src/templates/kotlin/opengl/GLBinding.kt:112 | a function whose address is not checked before a call is a non-deprecated `GL11` one and always holds the provider's address |
| EntryPoints.CheckOutcome | modules/lwjgl/opengl/src/templates/kotlin/opengl/GLBinding.kt:131-151 | the value of a generated `check_` method; no contract of its own, `ForwardCompatibleIgnoresGated` and `Capabilities.CapabilityValueExactly` state its role |
| EntryPoints.ForwardCompatibleIgnoresGated | modules/lwjgl/opengl/src/templates/kotlin/opengl/GLBinding.kt:140-151 | in a forward-compatible context the check's verdict does not depend on the entry points of the fc-gated functions |
| Javadoc.PageName | modules/lwjgl/opengl/src/templates/kotlin/opengl/GLBinding.kt:63-84 | the three rewrites in order; no contract of its own, the page rows below state which pages it keeps and what it gives for the named examples |
| Javadoc.OpenGLJavadoc | modules/lwjgl/opengl/src/templates/kotlin/opengl/GLBinding.kt:63-107 | `printOpenGLJavaDoc`: the comment built around the injected link; no contract of its own, characterised by `InjectedJavadocShape`, `CommentWithLink`, `SingleLineJavadoc` and `MultiLineJavadoc` |
| Javadoc.LazyStem | modules/lwjgl/opengl/src/templates/kotlin/opengl/GLBinding.kt:59-61 | the lazy `(\w+?)` group: the shortest word-character stem whose rest the pattern accepts, and none when no stem fits |
| Javadoc.VectorSuffixShape | modules/lwjgl/opengl/src/templates/kotlin/opengl/GLBinding.kt:59 | a suffix the first pattern accepts starts with `I`, `L`, `P`, `M` or a digit and contains a digit |
| Javadoc.VectorSuffix2Shape | modules/lwjgl/opengl/src/templates/kotlin/opengl/GLBinding.kt:60 | a suffix the second pattern accepts ends in `v` and has one of a few fixed shapes |
| Javadoc.NoDigitNoVectorSuffix | modules/lwjgl/opengl/src/templates/kotlin/opengl/GLBinding.kt:64-68 | a name without digits is kept by the first rewrite |
| Javadoc.NoVNoVectorSuffix2 | modules/lwjgl/opengl/src/templates/kotlin/opengl/GLBinding.kt:70-72 | a page not ending in `v` is kept by the second rewrite |
| Javadoc.NoUpperNNoNamed | modules/lwjgl/opengl/src/templates/kotlin/opengl/GLBinding.kt:78-80 | a page without `N` is kept by the third rewrite |
| Javadoc.ScissorIndexedGroups | modules/lwjgl/opengl/src/templates/kotlin/opengl/GLBinding.kt:60 | the second pattern reads `glScissorIndexedv` as stem `ScissorIndexe` and type `d`, which is why the page is special-cased |
| Javadoc.ScissorIndexedPage | modules/lwjgl/opengl/src/templates/kotlin/opengl/GLBinding.kt:63-84 | the page of `glScissorIndexedv` is `glScissorIndexed` |
| Javadoc.Uniform1ivStem | modules/lwjgl/opengl/src/templates/kotlin/opengl/GLBinding.kt:64-68 | the first pattern's group of `glUniform1iv` is `Uniform` |
| Javadoc.Uniform1ivPage | modules/lwjgl/opengl/src/templates/kotlin/opengl/GLBinding.kt:63-84 | the page of `glUniform1iv` is `glUniform` |
| Javadoc.NamedBufferDataGroups | modules/lwjgl/opengl/src/templates/kotlin/opengl/GLBinding.kt:61 | the third pattern splits `glNamedBufferData` into an empty prefix and `BufferData` |
| Javadoc.NamedBufferDataPage | modules/lwjgl/opengl/src/templates/kotlin/opengl/GLBinding.kt:63-84 | the page of `glNamedBufferData` is `glBufferData` |
| Javadoc.InjectedJavadocShape | modules/lwjgl/opengl/src/templates/kotlin/opengl/GLBinding.kt:86-91 | the link goes to `docs.gl/gl3/` plus the Core-profile notice for a deprecated function, and to `docs.gl/gl4/` without it otherwise |
| Javadoc.CommentWithLink | modules/lwjgl/opengl/src/templates/kotlin/opengl/GLBinding.kt:93-106 | empty documentation gives the one-line comment `/** link */` |
| Javadoc.SingleLineJavadoc | modules/lwjgl/opengl/src/templates/kotlin/opengl/GLBinding.kt:96-105 | a one-line comment is reopened over several lines, keeping its text and adding the `@see` line |
| Javadoc.MultiLineJavadoc | modules/lwjgl/opengl/src/templates/kotlin/opengl/GLBinding.kt:100-105 | a comment of several lines keeps everything before its closing line, then gets the `@see` line and is closed again |
| Javadoc.CustomJavadoc | modules/lwjgl/opengl/src/templates/kotlin/opengl/GLBinding.kt:51-57 | the custom javadoc is declined exactly for templates whose name does not start with `GL` |
| Capabilities.JavaWriter.EmitCapabilityFields | modules/lwjgl/opengl/src/templates/kotlin/opengl/GLBinding.kt:185-190 | the loop prints exactly the capability fields of the classes, or fails with the first exception |
| Capabilities.JavaWriter.EmitCapabilityField | modules/lwjgl/opengl/src/templates/kotlin/opengl/GLBinding.kt:186-189 | one class's field, nothing for a core class, and nothing printed on failure |
| Capabilities.JavaWriter.EmitCapabilityAssignments | modules/lwjgl/opengl/src/templates/kotlin/opengl/GLBinding.kt:210-221 | the loop prints exactly the capability assignments of the classes, or fails with the first exception |
| Capabilities.JavaWriter.EmitCapabilityAssignment | modules/lwjgl/opengl/src/templates/kotlin/opengl/GLBinding.kt:211-220 | a `check_` call (with `fc` when the class has deprecated functions) or an `ext.contains` test; nothing for a core class |
| Capabilities.JavaWriter.CheckExtensionFunctions | modules/lwjgl/opengl/src/templates/kotlin/opengl/GLBinding.kt:120-153 | prints exactly the described `check_` method of a non-core class, nothing for a core class |
| Capabilities.CheckLinesOf | modules/lwjgl/opengl/src/templates/kotlin/opengl/GLBinding.kt:128-152 | the `check_` method's three lines: the signature, the `return` with the fc-gated group in front of the main group, and the closing brace |
| Capabilities.JavaWriter.EmitCheckMethods | modules/lwjgl/opengl/src/templates/kotlin/opengl/GLBinding.kt:250-256 | the loop prints exactly the `check_` methods of the non-core classes with native functions |
| Capabilities.JavaWriter.EmitCheckMethod | modules/lwjgl/opengl/src/templates/kotlin/opengl/GLBinding.kt:251-255 | a core class and a class without native functions are skipped |
| Capabilities.JavaWriter.CheckExtensionPresent | modules/lwjgl/opengl/src/templates/kotlin/opengl/GLBinding.kt:155-157 | appends one presence helper line and nothing else |
| Capabilities.JavaWriter.EmitPresentHelpers | modules/lwjgl/opengl/src/templates/kotlin/opengl/GLBinding.kt:260-281 | prints the helpers of the table, in order |
| Capabilities.JavaWriter.EmitDeclarations | modules/lwjgl/opengl/src/templates/kotlin/opengl/GLBinding.kt:175-190 | prints the header, the address fields and the capability fields |
| Capabilities.JavaWriter.EmitBody | modules/lwjgl/opengl/src/templates/kotlin/opengl/GLBinding.kt:192-283 | prints the constructor, the helpers, the `check_` methods and the presence helpers |
| Capabilities.JavaWriter.GenerateJava | modules/lwjgl/opengl/src/templates/kotlin/opengl/GLBinding.kt:173-284 | prints exactly the described `GLCapabilities` class, or fails with the same exception |
| Capabilities.FieldDeclInjective | modules/lwjgl/opengl/src/templates/kotlin/opengl/GLBinding.kt:189 | different capability names give different field declarations |
| Capabilities.CapabilityFieldsExactly | modules/lwjgl/opengl/src/templates/kotlin/opengl/GLBinding.kt:185-190 | a field `cap` is declared exactly when some non-core class has capability name `cap` |
| Capabilities.CapabilityLinesAgree | modules/lwjgl/opengl/src/templates/kotlin/opengl/GLBinding.kt:185-256 | the field loop succeeds exactly when the assignment loop does, and then so does the `check_` loop; there are as many fields as assignments |
| Capabilities.GeneratedLinesFail | modules/lwjgl/opengl/src/templates/kotlin/opengl/GLBinding.kt:173-284 | generation succeeds exactly when every non-core class has a capability name |
| Capabilities.ClassPartsAgree | modules/lwjgl/opengl/src/templates/kotlin/opengl/GLBinding.kt:185-256 | a core class gets no field, assignment or `check_` method. Otherwise all three name the same capability; `check_` is called exactly for a class with native functions, with the method that is written, passing `fc` exactly when that method takes it |
| Capabilities.CapabilityRequiresAdvertised | modules/lwjgl/opengl/src/templates/kotlin/opengl/GLBinding.kt:210-221 | a capability is true only for a non-core class whose name the extension set advertises, and with native functions only when its entry points pass the check |
| Capabilities.CapabilityValueExactly | modules/lwjgl/opengl/src/templates/kotlin/opengl/GLBinding.kt:210-221 | no value for a core class; otherwise a value exactly when there is a capability name, and it is `true` exactly when the name is advertised and, with native functions, the entry points pass the check |
| Capabilities.CheckMethodPassesRequired | modules/lwjgl/opengl/src/templates/kotlin/opengl/GLBinding.kt:140-150 | the `check_` method passes every function not marked `IgnoreMissing`; without deprecated functions it has no fc-gated group |
| Capabilities.AddressLinesAt | modules/lwjgl/opengl/src/templates/kotlin/opengl/GLBinding.kt:180-208 | one address field and one address statement per listed function, in list order: field line `k` is the `k`-th name followed by `,`, or by `;` on the last one, and statement `k` is that function's lookup |
| Capabilities.AddressFieldAtOrdinal | modules/lwjgl/opengl/src/templates/kotlin/opengl/GLBinding.kt:177-208 | the field line at a function's ordinal is exactly its name followed by `,` or `;`, and the statement at that ordinal sets it |
| Capabilities.ExtensionPresent | modules/lwjgl/opengl/src/templates/kotlin/opengl/GLBinding.kt:156 | the value of a generated presence helper; no contract of its own, characterised by `ExtensionPresentOfCore` |
| Capabilities.ExtensionPresentOfCore | modules/lwjgl/opengl/src/templates/kotlin/opengl/GLBinding.kt:155-157 | the helper for core version `xy` holds exactly when the capability name of template `GLxy` or the `GL_` extension is advertised |

## Left out

- The Vulkan struct file of the repository and the memory-stack allocator and struct layout
  code: their behaviour lives in code that is not part of this model.
- Output details:
  - `generateJavaPreamble`;
  - the indentation `$t`, blank lines and the exact whitespace of the generated Java;
  - `getCapabilityJavadoc` before each capability field.

  Lines are recorded without indentation, and one `PrintWriter` line is one element.
- Generator framework that is not part of this model is taken as a parameter:
  - `url`;
  - the provider's addresses, `checkFunctions`, and the value of a `DependsOn` reference that
    is a Java expression rather than an extension name.

  `printPointers` is taken to print the `printPointer` text of the class's functions that pass
  its filter, in order, joined by `, `.
- `APIBinding`, `Generator.register`, `getClasses`, `javaImport`, the `init` block,
  `nativeClassGL` and the lazy initialisation of `classes`, `functions` and
  `functionOrdinals`. They are registration and caching with no behaviour of their own here.
- `generateFunctionAddress` (line 114-116) is modelled only as the text of its statement
  (`EntryPoints.FunctionAddressLine`). Nothing is proved about it.
- `apiLog` in the generated `checkExtension`: the message is not modelled, only the verdict.
- The 22 `checkExtensionPresent` calls are modelled as a loop over a table of the same pairs in
  the same order. The fixed text of the class (constructor head, helper methods, that table) is
  a parameter of the describing functions, and `GenerateJava` passes the source's constants.
- Capabilities.JavaWriter.GenerateJava: on an exception the lines already printed are not
  described. Only the exception is stated, and the same holds for `EmitDeclarations`,
  `EmitBody`, `EmitCapabilityFields`, `EmitCapabilityAssignments` and `EmitCheckMethods`.
- Names.CapName: its contract states only when it fails. The value of each of the three branches is
  stated by `Names.CapNameBranches`; `CapNameRoundTrip` and `CapNameInjective` hold only for GL
  templates (prefix and template prefix both `GL`).
- Javadoc.CommentWithLink: on the one-line path the source prints `/**` and ` * ` before its
  `substring` can throw; the model returns only the exception and not that partial output.
- Javadoc: the rewrites are proved on the named examples and on the rules that keep a page
  (no digit, no final `v`, no `N`). There is no general characterisation of every page name.

=== FILE: capabilities.dfy ===
/**
 * `generateJava`: the `GLCapabilities` class the OpenGL binding writes. The output is a
 * `JavaWriter` that collects the printed lines; one element of `lines` is one logical line of
 * the generated Java, without its indentation, and blank lines are not recorded. Each part of the
 * class is first described by a function of the classes, and the writing methods are proved to
 * print exactly what those functions describe.
 */
module Capabilities {
  import opened Wrappers
  import opened Text
  import opened Seqs
  import opened GLTypes
  import opened Names
  import opened Ordinals
  import opened EntryPoints

  const CAPABILITIES_CLASS: string := "GLCapabilities"

  /** The class header and the `ADDRESS_FIELDS` list, sized for `count` address fields. */
  function Header(count: nat): seq<string>
  {
    ["public final class " + CAPABILITIES_CLASS + " {",
     "static final List<Field> ADDRESS_FIELDS = ThreadLocalUtil.getFieldsFromCapabilities("
       + CAPABILITIES_CLASS + ".class, " + NatToString(count) + ");"]
  }

  /**
   * The declaration of the `long` address fields: the function names joined by `,` and closed
   * by `;`. Without functions only the `;` is printed.
   */
  function AddressFieldLines(fs: seq<Func>): seq<string>
  {
    if fs == [] then [";"]
    else seq(|fs|, i requires 0 <= i < |fs| => fs[i].name + (if i == |fs| - 1 then ";" else ","))
  }

  /** The boolean capability field declared for a capability name. */
  function FieldDecl(capName: string): string
  {
    "public final boolean " + capName + ";"
  }

  /** The capability fields of one class: one for every class that is not a core class. */
  function CapabilityFieldLines(c: NativeClass): Result<seq<string>>
  {
    if IsCore(c.templateName) then Ok([])
    else match CapName(c)
      case Err(e) => Err(e)
      case Ok(cap) => Ok([FieldDecl(cap)])
  }

  /** The fixed part of the class between the capability fields and the address initialisation. */
  const CONSTRUCTOR_HEAD: seq<string> := [
    "/** When true, deprecated functions are not available. */",
    "public final boolean forwardCompatible;",
    "/** Off-heap array of the above function addresses. */",
    "final PointerBuffer addresses;",
    CAPABILITIES_CLASS + "(FunctionProvider provider, Set<String> ext, boolean fc, IntFunction<PointerBuffer> bufferFactory) {",
    "forwardCompatible = fc;"]

  /** The constructor statements that load the function addresses, one per listed function. */
  function AddressInitLines(fs: seq<Func>): seq<string>
  {
    Map((f: Func) => RenderAddressInit(AddressInitOf(f)), fs)
  }

  /**
   * The statement that sets a capability field in the constructor: a call of the class's
   * `check_` method (passing `fc` when the class has deprecated functions) for a class with
   * native functions, a plain test of the extension set otherwise.
   */
  datatype CapabilityInit =
    | CheckCall(capName: string, templateName: string, passFc: bool)
    | ContainsTest(capName: string)

  /** The capability statement of a class; a core class has none. */
  function CapabilityInitOf(c: NativeClass): Result<Option<CapabilityInit>>
  {
    if IsCore(c.templateName) then Ok(None)
    else match CapName(c)
      case Err(e) => Err(e)
      case Ok(cap) =>
        if c.hasNativeFunctions then Ok(Some(CheckCall(cap, c.templateName, HasDeprecated(c.functions))))
        else Ok(Some(ContainsTest(cap)))
  }

  function RenderCapabilityInit(init: CapabilityInit): string
  {
    match init
    case CheckCall(cap, templateName, passFc) =>
      cap + " = check_" + templateName + "(ext" + (if passFc then ", fc" else "") + ");"
    case ContainsTest(cap) => cap + " = ext.contains(\"" + cap + "\");"
  }

  function CapabilityAssignmentLines(c: NativeClass): Result<seq<string>>
  {
    match CapabilityInitOf(c)
    case Err(e) => Err(e)
    case Ok(None) => Ok([])
    case Ok(Some(init)) => Ok([RenderCapabilityInit(init)])
  }

  /**
   * The value the constructor stores in a class's capability field, for the extension set
   * `ext` and forward-compatibility flag `fc`.
   */
  function CapabilityValue(c: NativeClass, ext: set<string>, fc: bool, rt: Runtime): Result<Option<bool>>
  {
    match CapabilityInitOf(c)
    case Err(e) => Err(e)
    case Ok(None) => Ok(None)
    case Ok(Some(ContainsTest(cap))) => Ok(Some(cap in ext))
    case Ok(Some(CheckCall(cap, _, _))) => Ok(Some(CheckOutcome(c.functions, cap, ext, fc, rt)))
  }

  /** The fixed part of the class between the capability assignments and the `check_` methods. */
  const HELPERS: seq<string> := [
    "addresses = ThreadLocalUtil.getAddressesFromCapabilities(this, ADDRESS_FIELDS, bufferFactory);",
    "}",
    "/** Returns the buffer of OpenGL function pointers. */",
    "public PointerBuffer getAddressBuffer() {",
    "return addresses;",
    "}",
    "private static boolean hasDSA(Set<String> ext) {",
    "return ext.contains(\"GL45\") || ext.contains(\"GL_ARB_direct_state_access\") || ext.contains(\"GL_EXT_direct_state_access\");",
    "}",
    "private static long getFunctionAddress(boolean fc, FunctionProvider provider, String functionName) {",
    "return fc ? NULL : provider.getFunctionAddress(functionName);",
    "}",
    "private static boolean checkExtension(String extension, boolean supported) {",
    "if (supported) {",
    "return true;",
    "}",
    "apiLog(\"[GL] \" + extension + \" was reported as available but an entry point is missing.\");",
    "return false;",
    "}"]

  /**
   * The `check_` method of a class: its name, the capability it tests, whether it takes the
   * `fc` flag, and the pointer expressions of the fc-gated and of the main group.
   */
  datatype CheckMethod = CheckMethod(
    templateName: string,
    capName: string,
    takesFc: bool,
    fcPointers: seq<string>,
    mainPointers: seq<string>)

  /** `checkExtensionFunctions`: nothing for a core class. */
  function CheckMethodOf(c: NativeClass): Result<Option<CheckMethod>>
  {
    if IsCore(c.templateName) then Ok(None)
    else match CapName(c)
      case Err(e) => Err(e)
      case Ok(cap) =>
        var fs := c.functions;
        Ok(Some(CheckMethod(c.templateName, cap, HasDeprecated(fs),
          Map(PointerExpr, FcGroup(fs)), Map(PointerExpr, MainGroup(fs)))))
  }

  /** The signature of a `check_` method. */
  function CheckSignature(templateName: string, takesFc: bool): string
  {
    "private boolean check_" + templateName + "(java.util.Set<String> ext" + (if takesFc then ", boolean fc" else "") + ") {"
  }

  /** The test of the fc-gated group, skipped in a forward-compatible context; empty without `fc`. */
  function FcCheck(takesFc: bool, fcPointers: seq<string>): string
  {
    if takesFc then "(fc || checkFunctions(" + Join(fcPointers, ", ") + ")) && " else ""
  }

  /** The `return` statement of a `check_` method. */
  function CheckReturn(capName: string, fcCheck: string, mainPointers: seq<string>): string
  {
    "return ext.contains(\"" + capName + "\") && checkExtension(\"" + capName + "\", "
      + fcCheck + "checkFunctions(" + Join(mainPointers, ", ") + "));"
  }

  /** The three lines of a `check_` method; the pointers are joined by `, `. */
  function RenderCheckMethod(m: CheckMethod): seq<string>
  {
    [CheckSignature(m.templateName, m.takesFc), CheckReturn(m.capName, FcCheck(m.takesFc, m.fcPointers), m.mainPointers), "}"]
  }

  function CheckExtensionFunctionsLines(c: NativeClass): Result<seq<string>>
  {
    match CheckMethodOf(c)
    case Err(e) => Err(e)
    case Ok(None) => Ok([])
    case Ok(Some(m)) => Ok(RenderCheckMethod(m))
  }

  /** The three lines `checkExtensionFunctions` prints for a class that is not a core class. */
  lemma CheckLinesOf(c: NativeClass, cap: string)
    requires !IsCore(c.templateName) && CapName(c) == Ok(cap)
    ensures var fs := c.functions;
      var mainPointers := Map(PointerExpr, if HasDeprecated(fs) then Filter(fs, RequiredUngated) else Filter(fs, Required));
      CheckExtensionFunctionsLines(c) == Ok([CheckSignature(c.templateName, HasDeprecated(fs)),
        CheckReturn(cap, FcCheck(HasDeprecated(fs), Map(PointerExpr, FcGroup(fs))), mainPointers), "}"])
  {
  }

  /** One step of the loop over the classes that writes the `check_` methods. */
  function CheckMethodLines(c: NativeClass): Result<seq<string>>
  {
    if IsCore(c.templateName) || !c.hasNativeFunctions then Ok([]) else CheckExtensionFunctionsLines(c)
  }

  /** `checkExtensionPresent`: a static helper telling whether a core version or its extension is there. */
  function PresentHelperLine(core: string, extension: string): string
  {
    "private static boolean " + extension + "(java.util.Set<String> ext) { return ext.contains(\"OpenGL"
      + core + "\") || ext.contains(\"GL_" + extension + "\"); }"
  }

  /** The value of the generated helper `extension(ext)`. */
  predicate ExtensionPresent(core: string, extension: string, ext: set<string>)
  {
    ("OpenGL" + core) in ext || ("GL_" + extension) in ext
  }

  /** The helpers the class carries, as (core version, ARB extension) pairs. */
  const PRESENT_HELPERS: seq<(string, string)> := [
    ("30", "ARB_framebuffer_object"),
    ("30", "ARB_map_buffer_range"),
    ("30", "ARB_vertex_array_object"),
    ("31", "ARB_copy_buffer"),
    ("31", "ARB_texture_buffer_object"),
    ("31", "ARB_uniform_buffer_object"),
    ("33", "ARB_instanced_arrays"),
    ("33", "ARB_sampler_objects"),
    ("40", "ARB_transform_feedback2"),
    ("41", "ARB_vertex_attrib_64bit"),
    ("41", "ARB_separate_shader_objects"),
    ("42", "ARB_texture_storage"),
    ("43", "ARB_texture_storage_multisample"),
    ("43", "ARB_vertex_attrib_binding"),
    ("43", "ARB_invalidate_subdata"),
    ("43", "ARB_texture_buffer_range"),
    ("43", "ARB_clear_buffer_object"),
    ("43", "ARB_framebuffer_no_attachments"),
    ("44", "ARB_buffer_storage"),
    ("44", "ARB_clear_texture"),
    ("44", "ARB_multi_bind"),
    ("44", "ARB_query_buffer_object")]

  function PresentHelperLines(helpers: seq<(string, string)>): seq<string>
  {
    Map((h: (string, string)) => PresentHelperLine(h.0, h.1), helpers)
  }

  /**
   * The parts of the class that do not depend on the templates: the fixed fields and the
   * constructor's signature, the fixed helper methods, and the table of presence helpers.
   */
  datatype FixedText = FixedText(constructorHead: seq<string>, helpers: seq<string>, presentHelpers: seq<(string, string)>)

  const FIXED: FixedText := FixedText(CONSTRUCTOR_HEAD, HELPERS, PRESENT_HELPERS)

  /** The class header and the address fields. */
  function Prologue(fs: seq<Func>): seq<string>
  {
    Header(|fs|) + ["public final long"] + AddressFieldLines(fs)
  }

  /** The fixed fields, the constructor's signature and its address statements. */
  function ConstructorLines(fs: seq<Func>, fixed: FixedText): seq<string>
  {
    fixed.constructorHead + AddressInitLines(fs)
  }

  /** The presence helpers and the end of the class. */
  function Epilogue(fixed: FixedText): seq<string>
  {
    PresentHelperLines(fixed.presentHelpers) + ["}"]
  }

  /** The declarations: the header, the address fields and the capability fields. */
  function DeclarationLines(classes: seq<NativeClass>): Result<seq<string>>
  {
    match FlatMap(classes, CapabilityFieldLines)
    case Err(e) => Err(e)
    case Ok(fields) => Ok(Prologue(Functions(classes)) + fields)
  }

  /** The constructor, the fixed helpers, the `check_` methods and the presence helpers. */
  function BodyLines(classes: seq<NativeClass>, fixed: FixedText): Result<seq<string>>
  {
    match FlatMap(classes, CapabilityAssignmentLines)
    case Err(e) => Err(e)
    case Ok(assignments) =>
      match FlatMap(classes, CheckMethodLines)
      case Err(e) => Err(e)
      case Ok(checks) => Ok(ConstructorLines(Functions(classes), fixed) + assignments + fixed.helpers + checks + Epilogue(fixed))
  }

  /**
   * The whole class. Generation throws exactly when one of the three loops over the classes
   * does, and with the first exception thrown.
   */
  function GeneratedLines(classes: seq<NativeClass>, fixed: FixedText): Result<seq<string>>
  {
    match DeclarationLines(classes)
    case Err(e) => Err(e)
    case Ok(declarations) =>
      match BodyLines(classes, fixed)
      case Err(e) => Err(e)
      case Ok(body) => Ok(declarations + body)
  }

  /** The `PrintWriter` the class is written to. */
  class JavaWriter {
    var lines: seq<string>

    constructor ()
      ensures lines == []
    {
      lines := [];
    }

    method Println(line: string)
      modifies this
      ensures lines == old(lines) + [line]
    {
      lines := lines + [line];
    }

    /** Prints a text of several lines. */
    method PrintlnAll(text: seq<string>)
      modifies this
      ensures lines == old(lines) + text
    {
      var i := 0;
      while i < |text|
        invariant 0 <= i <= |text|
        invariant lines == old(lines) + text[..i]
      {
        Println(text[i]);
        assert text[..i + 1] == text[..i] + [text[i]];
        i := i + 1;
      }
      assert text[..i] == text;
    }

    /** The capability fields: one declaration per class that is not a core class. */
    method EmitCapabilityFields(classes: seq<NativeClass>) returns (r: Result<()>)
      modifies this
      ensures r.Ok? <==> FlatMap(classes, CapabilityFieldLines).Ok?
      ensures r.Ok? ==> lines == old(lines) + FlatMap(classes, CapabilityFieldLines).value
      ensures r.Err? ==> FlatMap(classes, CapabilityFieldLines) == Err(r.error)
    {
      var i := 0;
      while i < |classes|
        invariant 0 <= i <= |classes|
        invariant FlatMap(classes[..i], CapabilityFieldLines).Ok?
        invariant lines == old(lines) + FlatMap(classes[..i], CapabilityFieldLines).value
      {
        var c := classes[i];
        FlatMapStep(classes, i, CapabilityFieldLines);
        ghost var before := lines;
        var step := EmitCapabilityField(c);
        if step.Err? {
          return step;
        }
        assert lines == before + CapabilityFieldLines(c).value;
        i := i + 1;
      }
      assert classes[..i] == classes;
      return Ok(());
    }

    /** One step of the `forEach` over the classes that are not core classes. */
    method EmitCapabilityField(c: NativeClass) returns (r: Result<()>)
      modifies this
      ensures r.Ok? <==> CapabilityFieldLines(c).Ok?
      ensures r.Ok? ==> lines == old(lines) + CapabilityFieldLines(c).value
      ensures r.Err? ==> CapabilityFieldLines(c) == Err(r.error) && lines == old(lines)
    {
      if !IsCore(c.templateName) {
        var cap := CapName(c);
        if cap.Err? {
          return Err(cap.error);
        }
        Println(FieldDecl(cap.value));
      }
      return Ok(());
    }

    /** The loop that sets the capability fields in the constructor. */
    method EmitCapabilityAssignments(classes: seq<NativeClass>) returns (r: Result<()>)
      modifies this
      ensures r.Ok? <==> FlatMap(classes, CapabilityAssignmentLines).Ok?
      ensures r.Ok? ==> lines == old(lines) + FlatMap(classes, CapabilityAssignmentLines).value
      ensures r.Err? ==> FlatMap(classes, CapabilityAssignmentLines) == Err(r.error)
    {
      var i := 0;
      while i < |classes|
        invariant 0 <= i <= |classes|
        invariant FlatMap(classes[..i], CapabilityAssignmentLines).Ok?
        invariant lines == old(lines) + FlatMap(classes[..i], CapabilityAssignmentLines).value
      {
        var extension := classes[i];
        FlatMapStep(classes, i, CapabilityAssignmentLines);
        ghost var before := lines;
        var step := EmitCapabilityAssignment(extension);
        if step.Err? {
          return step;
        }
        assert lines == before + CapabilityAssignmentLines(extension).value;
        i := i + 1;
      }
      assert classes[..i] == classes;
      return Ok(());
    }

    /** One step of the loop that sets the capability fields: nothing for a core class. */
    method EmitCapabilityAssignment(extension: NativeClass) returns (r: Result<()>)
      modifies this
      ensures r.Ok? <==> CapabilityAssignmentLines(extension).Ok?
      ensures r.Ok? ==> lines == old(lines) + CapabilityAssignmentLines(extension).value
      ensures r.Err? ==> CapabilityAssignmentLines(extension) == Err(r.error) && lines == old(lines)
    {
      if !IsCore(extension.templateName) {
        var capName := CapName(extension);
        if capName.Err? {
          return Err(capName.error);
        }
        var cap := capName.value;
        var line;
        if extension.hasNativeFunctions {
          line := cap + " = check_" + extension.templateName + "(ext"
            + (if HasDeprecated(extension.functions) then ", fc" else "") + ");";
          assert CapabilityInitOf(extension) == Ok(Some(CheckCall(cap, extension.templateName, HasDeprecated(extension.functions))));
        } else {
          line := cap + " = ext.contains(\"" + cap + "\");";
          assert CapabilityInitOf(extension) == Ok(Some(ContainsTest(cap)));
        }
        assert CapabilityAssignmentLines(extension) == Ok([line]);
        Println(line);
      }
      return Ok(());
    }

    /** `checkExtensionFunctions`: the `check_` method of a class that is not a core class. */
    method CheckExtensionFunctions(nativeClass: NativeClass) returns (r: Result<()>)
      modifies this
      ensures r.Ok? <==> CheckExtensionFunctionsLines(nativeClass).Ok?
      ensures r.Ok? ==> lines == old(lines) + CheckExtensionFunctionsLines(nativeClass).value
      ensures r.Err? ==> CheckExtensionFunctionsLines(nativeClass) == Err(r.error) && lines == old(lines)
    {
      if IsCore(nativeClass.templateName) {
        return Ok(());
      }
      var capName := CapName(nativeClass);
      if capName.Err? {
        return Err(capName.error);
      }
      var cap := capName.value;
      var fs := nativeClass.functions;
      var hasDeprecated := HasDeprecated(fs);
      var signature := CheckSignature(nativeClass.templateName, hasDeprecated);
      var mainPointers := Map(PointerExpr, if hasDeprecated then Filter(fs, RequiredUngated) else Filter(fs, Required));
      var returnLine := CheckReturn(cap, FcCheck(hasDeprecated, Map(PointerExpr, FcGroup(fs))), mainPointers);
      CheckLinesOf(nativeClass, cap);
      PrintlnAll([signature, returnLine, "}"]);
      return Ok(());
    }

    /** The loop that writes the `check_` methods of the classes with native functions. */
    method EmitCheckMethods(classes: seq<NativeClass>) returns (r: Result<()>)
      modifies this
      ensures r.Ok? <==> FlatMap(classes, CheckMethodLines).Ok?
      ensures r.Ok? ==> lines == old(lines) + FlatMap(classes, CheckMethodLines).value
      ensures r.Err? ==> FlatMap(classes, CheckMethodLines) == Err(r.error)
    {
      var i := 0;
      while i < |classes|
        invariant 0 <= i <= |classes|
        invariant FlatMap(classes[..i], CheckMethodLines).Ok?
        invariant lines == old(lines) + FlatMap(classes[..i], CheckMethodLines).value
      {
        var extension := classes[i];
        FlatMapStep(classes, i, CheckMethodLines);
        ghost var before := lines;
        var step := EmitCheckMethod(extension);
        if step.Err? {
          return step;
        }
        assert lines == before + CheckMethodLines(extension).value;
        i := i + 1;
      }
      assert classes[..i] == classes;
      return Ok(());
    }

    /** One step of the loop: only a class that is not a core class and has native functions is checked. */
    method EmitCheckMethod(extension: NativeClass) returns (r: Result<()>)
      modifies this
      ensures r.Ok? <==> CheckMethodLines(extension).Ok?
      ensures r.Ok? ==> lines == old(lines) + CheckMethodLines(extension).value
      ensures r.Err? ==> CheckMethodLines(extension) == Err(r.error) && lines == old(lines)
    {
      if !IsCore(extension.templateName) && extension.hasNativeFunctions {
        r := CheckExtensionFunctions(extension);
      } else {
        r := Ok(());
      }
    }

    /** `checkExtensionPresent` */
    method CheckExtensionPresent(core: string, extension: string)
      modifies this
      ensures lines == old(lines) + [PresentHelperLine(core, extension)]
    {
      Println("private static boolean " + extension + "(java.util.Set<String> ext) { return ext.contains(\"OpenGL"
        + core + "\") || ext.contains(\"GL_" + extension + "\"); }");
    }

    /** The helpers of the table, in order. */
    method EmitPresentHelpers(helpers: seq<(string, string)>)
      modifies this
      ensures lines == old(lines) + PresentHelperLines(helpers)
    {
      var i := 0;
      while i < |helpers|
        invariant 0 <= i <= |helpers|
        invariant lines == old(lines) + PresentHelperLines(helpers[..i])
      {
        CheckExtensionPresent(helpers[i].0, helpers[i].1);
        assert PresentHelperLines(helpers[..i + 1]) == PresentHelperLines(helpers[..i]) + [PresentHelperLine(helpers[i].0, helpers[i].1)];
        i := i + 1;
      }
      assert helpers[..i] == helpers;
    }

    /** The first half of `generateJava`: everything before the constructor. */
    method EmitDeclarations(classes: seq<NativeClass>) returns (r: Result<()>)
      modifies this
      ensures r.Ok? <==> DeclarationLines(classes).Ok?
      ensures r.Ok? ==> lines == old(lines) + DeclarationLines(classes).value
      ensures r.Err? ==> DeclarationLines(classes) == Err(r.error)
    {
      var functions := Functions(classes);
      PrintlnAll(Header(|functions|));
      Println("public final long");
      PrintlnAll(AddressFieldLines(functions));
      ConcatThree(old(lines), Header(|functions|), ["public final long"], AddressFieldLines(functions));
      r := EmitCapabilityFields(classes);
      if r.Ok? {
        ConcatAssoc(old(lines), Prologue(functions), FlatMap(classes, CapabilityFieldLines).value);
      }
    }

    /** The second half of `generateJava`: the constructor and the methods. */
    method EmitBody(classes: seq<NativeClass>, fixed: FixedText) returns (r: Result<()>)
      modifies this
      ensures r.Ok? <==> BodyLines(classes, fixed).Ok?
      ensures r.Ok? ==> lines == old(lines) + BodyLines(classes, fixed).value
      ensures r.Err? ==> BodyLines(classes, fixed) == Err(r.error)
    {
      var functions := Functions(classes);
      PrintlnAll(fixed.constructorHead);
      PrintlnAll(AddressInitLines(functions));
      assert lines == old(lines) + ConstructorLines(functions, fixed);
      r := EmitCapabilityAssignments(classes);
      if r.Err? {
        return;
      }
      ghost var assignmentLines := FlatMap(classes, CapabilityAssignmentLines).value;
      PrintlnAll(fixed.helpers);
      r := EmitCheckMethods(classes);
      if r.Err? {
        return;
      }
      ghost var withChecks := lines;
      EmitPresentHelpers(fixed.presentHelpers);
      Println("}");
      assert lines == withChecks + Epilogue(fixed);
      ConcatFive(old(lines), ConstructorLines(functions, fixed), assignmentLines, fixed.helpers,
        FlatMap(classes, CheckMethodLines).value, Epilogue(fixed));
    }

    /** `generateJava`, after the preamble. */
    method GenerateJava(classes: seq<NativeClass>) returns (r: Result<()>)
      modifies this
      ensures r.Ok? <==> GeneratedLines(classes, FIXED).Ok?
      ensures r.Ok? ==> lines == old(lines) + GeneratedLines(classes, FIXED).value
      ensures r.Err? ==> GeneratedLines(classes, FIXED) == Err(r.error)
    {
      r := EmitDeclarations(classes);
      if r.Err? {
        return;
      }
      ghost var declarations := lines;
      r := EmitBody(classes, FIXED);
      if r.Ok? {
        ConcatAssoc(old(lines), DeclarationLines(classes).value, BodyLines(classes, FIXED).value);
      }
    }
  }

  lemma ConcatAssoc(o: seq<string>, a: seq<string>, b: seq<string>)
    ensures o + a + b == o + (a + b)
  {
  }

  lemma ConcatThree(o: seq<string>, a: seq<string>, b: seq<string>, c: seq<string>)
    ensures o + a + b + c == o + (a + b + c)
  {
  }

  lemma ConcatFive(o: seq<string>, a: seq<string>, b: seq<string>, c: seq<string>, d: seq<string>, e: seq<string>)
    ensures o + a + b + c + d + e == o + (a + b + c + d + e)
  {
  }

  /** Different capability names give different field declarations. */
  lemma FieldDeclInjective(a: string, b: string)
    requires FieldDecl(a) == FieldDecl(b)
    ensures a == b
  {
    var n := |"public final boolean "|;
    assert a == FieldDecl(a)[n..|FieldDecl(a)| - 1];
    assert b == FieldDecl(b)[n..|FieldDecl(b)| - 1];
  }

  /**
   * The capability fields are exactly those of the classes that are not core classes: a field
   * `cap` is declared iff some non-core class has capability name `cap`.
   */
  lemma CapabilityFieldsExactly(classes: seq<NativeClass>, cap: string)
    requires FlatMap(classes, CapabilityFieldLines).Ok?
    ensures FieldDecl(cap) in FlatMap(classes, CapabilityFieldLines).value <==>
      exists c :: c in classes && !IsCore(c.templateName) && CapName(c) == Ok(cap)
  {
    FlatMapLines(classes, CapabilityFieldLines, FieldDecl(cap));
    if FieldDecl(cap) in FlatMap(classes, CapabilityFieldLines).value {
      var c :| c in classes && CapabilityFieldLines(c).Ok? && FieldDecl(cap) in CapabilityFieldLines(c).value;
      FieldDeclInjective(CapName(c).value, cap);
    }
    if exists c :: c in classes && !IsCore(c.templateName) && CapName(c) == Ok(cap) {
      var c :| c in classes && !IsCore(c.templateName) && CapName(c) == Ok(cap);
      assert FieldDecl(cap) in CapabilityFieldLines(c).value;
    }
  }

  /** A class gets a capability line in one loop exactly when it gets one in the other. */
  lemma {:induction false} CapabilityLinesAgree(classes: seq<NativeClass>)
    ensures FlatMap(classes, CapabilityFieldLines).Ok? <==> FlatMap(classes, CapabilityAssignmentLines).Ok?
    ensures FlatMap(classes, CapabilityFieldLines).Ok? ==> FlatMap(classes, CheckMethodLines).Ok?
    ensures FlatMap(classes, CapabilityFieldLines).Ok? ==>
      |FlatMap(classes, CapabilityFieldLines).value| == |FlatMap(classes, CapabilityAssignmentLines).value|
    decreases |classes|
  {
    if classes != [] {
      var init, c := classes[..|classes| - 1], classes[|classes| - 1];
      CapabilityLinesAgree(init);
    }
  }

  /** Generation succeeds exactly when the loop over the capability fields does. */
  lemma GeneratedLinesFollowFields(classes: seq<NativeClass>, fixed: FixedText)
    ensures GeneratedLines(classes, fixed).Ok? <==> FlatMap(classes, CapabilityFieldLines).Ok?
  {
    CapabilityLinesAgree(classes);
    BodyLinesFollowLoops(classes, fixed);
  }

  /** The body is written exactly when the assignment loop and the `check_` loop both succeed. */
  lemma BodyLinesFollowLoops(classes: seq<NativeClass>, fixed: FixedText)
    ensures BodyLines(classes, fixed).Ok? <==>
      FlatMap(classes, CapabilityAssignmentLines).Ok? && FlatMap(classes, CheckMethodLines).Ok?
  {
  }

  /**
   * Generation throws exactly when a class that is not a core class has no capability name
   * (a `GL` template whose name is shorter than the two characters `substring(2)` cuts).
   */
  lemma GeneratedLinesFail(classes: seq<NativeClass>, fixed: FixedText)
    ensures GeneratedLines(classes, fixed).Ok? <==>
      forall c :: c in classes && !IsCore(c.templateName) ==> CapName(c).Ok?
  {
    GeneratedLinesFollowFields(classes, fixed);
    FlatMapFails(classes, CapabilityFieldLines);
    forall c | c in classes
      ensures CapabilityFieldLines(c).Ok? <==> IsCore(c.templateName) || CapName(c).Ok?
    {
    }
  }

  /**
   * What the three per-class parts say about a class agree: a core class gets none of them;
   * otherwise the field, the assignment and the `check_` method name the same capability, the
   * assignment calls `check_` exactly for a class with native functions, the call names the
   * method that is declared, and passes `fc` exactly when the method takes it.
   */
  lemma ClassPartsAgree(c: NativeClass)
    ensures IsCore(c.templateName) ==>
      CapabilityFieldLines(c) == Ok([]) && CapabilityAssignmentLines(c) == Ok([]) && CheckMethodLines(c) == Ok([])
    ensures !IsCore(c.templateName) ==>
      (CapabilityFieldLines(c).Ok? <==> CapName(c).Ok?) && (CapabilityInitOf(c).Ok? <==> CapName(c).Ok?)
      && (CheckMethodOf(c).Ok? <==> CapName(c).Ok?)
    ensures !IsCore(c.templateName) && CapName(c).Ok? ==>
      var cap := CapName(c).value;
      var init := CapabilityInitOf(c).value;
      var m := CheckMethodOf(c).value;
      CapabilityFieldLines(c) == Ok([FieldDecl(cap)])
      && init.Some? && init.value.capName == cap && m.Some? && m.value.capName == cap
      && (init.value.CheckCall? <==> c.hasNativeFunctions)
      && (init.value.CheckCall? <==> CheckMethodLines(c) != Ok([]))
      && (init.value.CheckCall? ==>
            init.value.templateName == m.value.templateName && init.value.passFc == m.value.takesFc
            && CheckMethodLines(c) == Ok(RenderCheckMethod(m.value)))
  {
  }

  /**
   * A capability is reported only when the extension set advertises its name; a class with
   * native functions is reported only when its entry points pass the check as well.
   */
  lemma CapabilityRequiresAdvertised(c: NativeClass, ext: set<string>, fc: bool, rt: Runtime)
    requires CapabilityValue(c, ext, fc, rt) == Ok(Some(true))
    ensures !IsCore(c.templateName) && CapName(c).Ok? && CapName(c).value in ext
    ensures c.hasNativeFunctions ==> CheckOutcome(c.functions, CapName(c).value, ext, fc, rt)
  {
  }

  /**
   * The value a class's capability field gets: none for a core class; otherwise, with a
   * capability name, `true` exactly when the extension set advertises that name and, for a
   * class with native functions, its entry points pass the check.
   */
  lemma CapabilityValueExactly(c: NativeClass, ext: set<string>, fc: bool, rt: Runtime)
    ensures IsCore(c.templateName) ==> CapabilityValue(c, ext, fc, rt) == Ok(None)
    ensures !IsCore(c.templateName) ==> (CapabilityValue(c, ext, fc, rt).Ok? <==> CapName(c).Ok?)
    ensures !IsCore(c.templateName) && CapName(c).Ok? ==>
      CapabilityValue(c, ext, fc, rt) == Ok(Some(CapName(c).value in ext
        && (c.hasNativeFunctions ==> CheckOutcome(c.functions, CapName(c).value, ext, fc, rt))))
  {
  }

  /**
   * The `check_` method of a class passes every function the class does not mark
   * `IgnoreMissing` to `checkFunctions`; without deprecated functions it has no fc-gated group.
   */
  lemma CheckMethodPassesRequired(c: NativeClass, i: nat)
    requires CheckMethodOf(c).Ok? && CheckMethodOf(c).value.Some?
    requires i < |c.functions| && !c.functions[i].ignoreMissing
    ensures PointerExpr(c.functions[i]) in CheckMethodOf(c).value.value.fcPointers + CheckMethodOf(c).value.value.mainPointers
    ensures !CheckMethodOf(c).value.value.takesFc ==> CheckMethodOf(c).value.value.fcPointers == []
  {
    var fs := c.functions;
    var m := CheckMethodOf(c).value.value;
    GroupsCover(fs, i);
    if fs[i] in FcGroup(fs) {
      var k :| 0 <= k < |FcGroup(fs)| && FcGroup(fs)[k] == fs[i];
      assert m.fcPointers[k] == PointerExpr(fs[i]);
    } else {
      var k :| 0 <= k < |MainGroup(fs)| && MainGroup(fs)[k] == fs[i];
      assert m.mainPointers[k] == PointerExpr(fs[i]);
    }
    if !m.takesFc {
      MainGroupWithoutDeprecated(fs);
    }
  }

  /**
   * One address field and one address statement per listed function, in the same order: the
   * field at index `k` is declared with the `k`-th name and initialised by that function's lookup.
   */
  lemma AddressLinesAt(fs: seq<Func>, k: nat)
    requires k < |fs|
    ensures |AddressFieldLines(fs)| == |fs| == |AddressInitLines(fs)|
    ensures AddressFieldLines(fs)[k] == fs[k].name + (if k == |fs| - 1 then ";" else ",")
    ensures AddressInitLines(fs)[k] == RenderAddressInit(AddressInitOf(fs[k])) && AddressInitOf(fs[k]).field == fs[k].name
  {
  }

  /** The field at a function's ordinal is the one declared with its name and set by its lookup. */
  lemma AddressFieldAtOrdinal(classes: seq<NativeClass>, func: Func)
    requires GetFunctionOrdinal(classes, func).Ok?
    ensures var fs := Functions(classes);
      var k := GetFunctionOrdinal(classes, func).value;
      k < |fs| && |AddressFieldLines(fs)| == |fs| == |AddressInitLines(fs)|
      && AddressFieldLines(fs)[k] == func.name + (if k == |fs| - 1 then ";" else ",")
      && AddressInitOf(fs[k]).field == func.name
  {
    AddressLinesAt(Functions(classes), GetFunctionOrdinal(classes, func).value);
  }

  /**
   * A presence helper of a core version `xy` holds when the capability field of the template
   * `GLxy` is advertised, or when the `GL_` extension is.
   */
  lemma ExtensionPresentOfCore(core: string, extension: string, ext: set<string>, c: NativeClass)
    requires c.templateName == "GL" + core && c.prefix == "GL" && c.prefixTemplate == "GL"
    ensures CapName(c) == Ok("OpenGL" + core)
    ensures ExtensionPresent(core, extension, ext) <==> CapName(c).value in ext || ("GL_" + extension) in ext
  {
    assert StartsWith(c.templateName, "GL");
    assert c.templateName[2..] == core;
  }
}

=== FILE: entry_points.dfy ===
/**
 * How `GLCapabilities` obtains and checks entry points: the address each function field is
 * initialised with, the pointer expression a `check_` method passes for a function, and the two
 * groups of functions a `check_` method hands to `checkFunctions`.
 */
module EntryPoints {
  import opened Wrappers
  import opened Text
  import opened Seqs
  import opened GLTypes

  /** `NULL` of `MemoryUtil` */
  const NULL: int := 0

  /** Deprecated and without `DependsOn`: looked up through `getFunctionAddress(fc, …)`, checked unless `fc`. */
  predicate FcGated(f: Func)
  {
    f.deprecated && f.dependsOn.None?
  }

  /** Not marked `IgnoreMissing`. */
  predicate Required(f: Func)
  {
    !f.ignoreMissing
  }

  /** The filter of the main group in a class that has deprecated functions. */
  predicate RequiredUngated(f: Func)
  {
    (!f.deprecated || f.dependsOn.Some?) && !f.ignoreMissing
  }

  /** `hasDeprecated`: some function carries `DeprecatedGL`. */
  predicate HasDeprecated(fs: seq<Func>)
  {
    exists i :: 0 <= i < |fs| && fs[i].deprecated
  }

  /** The functions checked only when the context is not forward compatible (`fc || checkFunctions(…)`). */
  function FcGroup(fs: seq<Func>): seq<Func>
  {
    Filter(fs, FcGated)
  }

  /** The functions checked in every context. */
  function MainGroup(fs: seq<Func>): seq<Func>
  {
    if HasDeprecated(fs) then Filter(fs, RequiredUngated) else Filter(fs, Required)
  }

  /** No function is checked twice. */
  lemma GroupsDisjoint(fs: seq<Func>, f: Func)
    ensures !(f in FcGroup(fs) && f in MainGroup(fs))
  {
    if f in FcGroup(fs) {
      var i :| 0 <= i < |FcGroup(fs)| && FcGroup(fs)[i] == f;
      var j :| 0 <= j < |fs| && fs[j] == f;
      assert HasDeprecated(fs) && !RequiredUngated(f);
    }
  }

  /**
   * A function of the class is checked exactly when it is not `IgnoreMissing` or when it is
   * deprecated without `DependsOn`: the fc-gated group does not look at `IgnoreMissing`.
   * In particular every function without `IgnoreMissing` is checked.
   */
  lemma GroupsCover(fs: seq<Func>, i: nat)
    requires i < |fs|
    ensures fs[i] in FcGroup(fs) || fs[i] in MainGroup(fs) <==> !fs[i].ignoreMissing || FcGated(fs[i])
  {
    var f := fs[i];
    if f in FcGroup(fs) {
      var k :| 0 <= k < |FcGroup(fs)| && FcGroup(fs)[k] == f;
    }
    if f in MainGroup(fs) {
      var k :| 0 <= k < |MainGroup(fs)| && MainGroup(fs)[k] == f;
    }
    if HasDeprecated(fs) && !FcGated(f) && !f.ignoreMissing {
      assert RequiredUngated(f);
    }
  }

  /**
   * Without deprecated functions the fc-gated group is empty and the deprecated-aware filter
   * would pick the same main group as the plain `!IgnoreMissing` one the template uses.
   */
  lemma {:induction false} MainGroupWithoutDeprecated(fs: seq<Func>)
    requires !HasDeprecated(fs)
    ensures FcGroup(fs) == []
    ensures MainGroup(fs) == Filter(fs, RequiredUngated)
  {
    if FcGroup(fs) != [] {
      FilterFirst(fs, FcGated);
      assert false;
    }
    forall f | f in fs ensures Required(f) == RequiredUngated(f) {
      var j :| 0 <= j < |fs| && fs[j] == f;
    }
    FilterAgrees(fs, Required, RequiredUngated);
  }

  /** `[A-Za-z0-9_]+`, matched against the whole reference. */
  predicate IsExtensionName(s: string)
  {
    |s| >= 1 && AllWordChars(s)
  }

  /**
   * `printPointer`: the pointer a `check_` method passes for a function. A `DependsOn` function
   * passes its field only when the dependency holds and `-1L` otherwise; a dependency that is a
   * plain extension name becomes `ext.contains("name")`.
   */
  function PointerExpr(f: Func): string
  {
    match f.dependsOn
    case None => f.name
    case Some(ref) =>
      (if IsExtensionName(ref) then "ext.contains(\"" + ref + "\")" else ref) + " ? " + f.name + " : -1L"
  }

  /**
   * What the generated code needs from its environment: the `FunctionProvider`, the value of a
   * dependency that is a Java expression rather than an extension name, and `checkFunctions`.
   */
  datatype Runtime = Runtime(
    provider: string -> int,
    holds: string -> bool,
    checkFunctions: seq<int> -> bool)

  /** Value of a `DependsOn` reference in the generated code. */
  predicate DependencyHolds(ref: string, ext: set<string>, rt: Runtime)
  {
    if IsExtensionName(ref) then ref in ext else rt.holds(ref)
  }

  /** The value `PointerExpr(f)` evaluates to, given the value of the function's field. */
  function PointerValue(f: Func, ext: set<string>, rt: Runtime, field: int): int
  {
    match f.dependsOn
    case None => field
    case Some(ref) => if DependencyHolds(ref, ext, rt) then field else -1
  }

  /**
   * A function whose dependency is absent passes `-1`, which is not `NULL`; with the dependency
   * present, or without `DependsOn`, it passes its field. An extension-name dependency is tested
   * against the advertised set, any other reference is emitted as the Java condition itself.
   */
  lemma PointerValueOfDependency(f: Func, ext: set<string>, rt: Runtime, field: int)
    ensures f.dependsOn.Some? && !DependencyHolds(f.dependsOn.value, ext, rt) ==>
      PointerValue(f, ext, rt, field) == -1 != NULL
    ensures f.dependsOn.Some? && IsExtensionName(f.dependsOn.value) ==>
      (PointerValue(f, ext, rt, field) == field || PointerValue(f, ext, rt, field) == -1)
      && (f.dependsOn.value in ext ==> PointerValue(f, ext, rt, field) == field)
      && PointerExpr(f) == "ext.contains(\"" + f.dependsOn.value + "\") ? " + f.name + " : -1L"
    ensures f.dependsOn.Some? && DependencyHolds(f.dependsOn.value, ext, rt) ==>
      PointerValue(f, ext, rt, field) == field
    ensures f.dependsOn.Some? && !IsExtensionName(f.dependsOn.value) ==>
      (DependencyHolds(f.dependsOn.value, ext, rt) <==> rt.holds(f.dependsOn.value))
      && PointerExpr(f) == f.dependsOn.value + " ? " + f.name + " : -1L"
    ensures f.dependsOn.None? ==> PointerValue(f, ext, rt, field) == field && PointerExpr(f) == f.name
  {
  }

  /** The statement the `GLCapabilities` constructor initialises a function's address field with. */
  datatype AddressInit =
    | GatedLookup(field: string, address: string)     // field = getFunctionAddress(fc, provider, address);
    | ProviderLookup(field: string, address: string)  // field = provider.getFunctionAddress(address);

  function AddressInitOf(f: Func): AddressInit
  {
    if FcGated(f) then GatedLookup(f.name, f.functionAddress) else ProviderLookup(f.name, f.functionAddress)
  }

  function RenderAddressInit(init: AddressInit): string
  {
    match init
    case GatedLookup(field, address) => field + " = getFunctionAddress(fc, provider, " + address + ");"
    case ProviderLookup(field, address) => field + " = provider.getFunctionAddress(" + address + ");"
  }

  /** The static helper `getFunctionAddress(fc, provider, functionName)` of the generated class. */
  function GetFunctionAddress(fc: bool, provider: string -> int, functionName: string): int
  {
    if fc then NULL else provider(functionName)
  }

  /** The value an initialisation statement stores. */
  function Evaluate(init: AddressInit, fc: bool, provider: string -> int): int
  {
    match init
    case GatedLookup(_, address) => GetFunctionAddress(fc, provider, address)
    case ProviderLookup(_, address) => provider(address)
  }

  /** The address a function's field holds after construction. */
  function FieldValue(f: Func, fc: bool, provider: string -> int): int
  {
    Evaluate(AddressInitOf(f), fc, provider)
  }

  /**
   * In a forward-compatible context a deprecated function without `DependsOn` gets `NULL`
   * without asking the provider; every other function, and every function in any other
   * context, gets what the provider returns for it.
   */
  lemma FieldValueRule(f: Func, fc: bool, provider: string -> int)
    ensures fc && f.deprecated && f.dependsOn.None? ==> FieldValue(f, fc, provider) == NULL
    ensures !(fc && f.deprecated && f.dependsOn.None?) ==> FieldValue(f, fc, provider) == provider(f.functionAddress)
    ensures AddressInitOf(f).field == f.name && AddressInitOf(f).address == f.functionAddress
  {
  }

  /** `shouldCheckFunctionAddress`: every function except the non-deprecated ones of `GL11`. */
  predicate ShouldCheckFunctionAddress(f: Func, templateName: string)
  {
    templateName != "GL11" || f.deprecated
  }

  /** A function whose address is not checked before a call is never nulled by forward compatibility. */
  lemma UncheckedAddressIsProvided(f: Func, templateName: string, fc: bool, provider: string -> int)
    requires !ShouldCheckFunctionAddress(f, templateName)
    ensures templateName == "GL11" && !f.deprecated
    ensures FieldValue(f, fc, provider) == provider(f.functionAddress)
  {
  }

  /** `generateFunctionAddress`: the statement that loads a function's address from the current context. */
  function FunctionAddressLine(f: Func): string
  {
    "long __functionAddress = GL.getICD()." + f.name + ";"
  }

  function PointerValues(fs: seq<Func>, ext: set<string>, fc: bool, rt: Runtime): (ps: seq<int>)
    ensures |ps| == |fs|
  {
    Map((f: Func) => PointerValue(f, ext, rt, FieldValue(f, fc, rt.provider)), fs)
  }

  /** The static helper `checkExtension(extension, supported)`; its log message is not modelled. */
  predicate CheckExtension(extension: string, supported: bool)
  {
    supported
  }

  /** The value of a generated `check_` method of a class with functions `fs` and capability name `capName`. */
  predicate CheckOutcome(fs: seq<Func>, capName: string, ext: set<string>, fc: bool, rt: Runtime)
  {
    var main := rt.checkFunctions(PointerValues(MainGroup(fs), ext, fc, rt));
    capName in ext && CheckExtension(capName,
      if HasDeprecated(fs) then (fc || rt.checkFunctions(PointerValues(FcGroup(fs), ext, fc, rt))) && main
      else main)
  }

  /**
   * In a forward-compatible context the check does not depend on the entry points of the
   * deprecated functions without `DependsOn` (the ones the constructor sets to `NULL`): two
   * providers that agree on every other function give the same verdict.
   */
  lemma ForwardCompatibleIgnoresGated(fs: seq<Func>, capName: string, ext: set<string>, rt1: Runtime, rt2: Runtime)
    requires rt1.holds == rt2.holds && rt1.checkFunctions == rt2.checkFunctions
    requires forall f :: f in fs && !FcGated(f) ==> rt1.provider(f.functionAddress) == rt2.provider(f.functionAddress)
    ensures CheckOutcome(fs, capName, ext, true, rt1) == CheckOutcome(fs, capName, ext, true, rt2)
  {
    var main := MainGroup(fs);
    forall i | 0 <= i < |main|
      ensures PointerValues(main, ext, true, rt1)[i] == PointerValues(main, ext, true, rt2)[i]
    {
      var f := main[i];
      assert f in fs;
      GroupsDisjoint(fs, f);
      if FcGated(f) {
        assert f in FcGroup(fs);
      }
    }
    assert PointerValues(main, ext, true, rt1) == PointerValues(main, ext, true, rt2);
  }
}

=== FILE: gl_types.dfy ===
/**
 * The generator's view of an OpenGL template: a native class (one Kotlin template, that is one
 * extension or core version) and its functions, with the modifiers the binding looks at.
 */
module GLTypes {
  import opened Wrappers

  /**
   * A function of a template. `deprecated` is the `DeprecatedGL` modifier, `dependsOn` the
   * reference of a `DependsOn` modifier, `ignoreMissing` and `reuse` the `IgnoreMissing` and
   * `Reuse` modifiers; `functionAddress` is the Java expression naming its entry point.
   */
  datatype Func = Func(
    name: string,
    nativeName: string,
    functionAddress: string,
    deprecated: bool,
    dependsOn: Option<string>,
    ignoreMissing: bool,
    reuse: bool)

  datatype NativeClass = NativeClass(
    templateName: string,
    className: string,
    prefixTemplate: string,
    prefix: string,
    postfix: string,
    hasNativeFunctions: bool,
    functions: seq<Func>)
}

=== FILE: javadoc.dfy ===
/**
 * The javadoc the OpenGL binding writes for a GL function: the docs.gl reference page derived
 * from the native function name, the link to it, the notice on deprecated functions, and the
 * comment that carries them.
 */
module Javadoc {
  import opened Wrappers
  import opened Text

  /** `body[j..]` is what is left after a stem `body[..j]` of one or more word characters that `accept` takes. */
  predicate IsStem(body: string, j: int, accept: string -> bool)
  {
    1 <= j <= |body| && AllWordChars(body[..j]) && accept(body[j..])
  }

  /**
   * A lazy group `(\w+?)` followed by the rest of a pattern anchored at the end: the shortest stem
   * of word characters, trying lengths from `k` on, after which `accept` takes the rest.
   */
  function LazyStem(body: string, k: nat, accept: string -> bool): (r: Option<string>)
    requires 1 <= k <= |body| + 1 && AllWordChars(body[..k - 1])
    ensures r.Some? ==> k <= |r.value| <= |body| && r.value == body[..|r.value|] && IsStem(body, |r.value|, accept)
    ensures r.Some? ==> forall j :: k <= j < |r.value| ==> !IsStem(body, j, accept)
    ensures r.None? ==> forall j :: k <= j <= |body| ==> !IsStem(body, j, accept)
    decreases |body| - k
  {
    if k > |body| then None
    else if !IsWordChar(body[k - 1]) then
      assert forall j :: k <= j <= |body| ==> body[..j][k - 1] == body[k - 1];
      None
    else
      assert body[..k] == body[..k - 1] + [body[k - 1]];
      if accept(body[k..]) then Some(body[..k])
      else LazyStem(body, k + 1, accept)
  }

  /** `[ILP]?`-style optional single character out of `chars`. */
  function DropOptional(s: string, chars: string): string
  {
    if |s| > 0 && s[0] in chars then s[1..] else s
  }

  /** An optional literal such as `(?:Matrix)?`. */
  function DropOptionalWord(s: string, word: string): string
  {
    if StartsWith(s, word) then s[|word|..] else s
  }

  /** `(?:[bsifd]|i64)` followed by exactly one of `tails`. */
  predicate TypeThen(s: string, tails: set<string>)
  {
    (|s| >= 1 && s[0] in "bsifd" && s[1..] in tails) || (StartsWith(s, "i64") && s[3..] in tails)
  }

  /** `x\d+` at the start of `s` removed, or nothing when `s` starts with `x` but no digit follows. */
  function DropDimension(s: string): Option<string>
  {
    if StartsWith(s, "x") then
      var n := DigitRun(s[1..]);
      if n >= 1 then Some(s[1 + n..]) else None
    else Some(s)
  }

  /**
   * `[ILP]?(?:Matrix)?\d+(x\d+)?N?u?(?:[bsifd]|i64)_?v?` matched against the whole of `s`.
   * Each optional part starts with a character no later part can start with, so taking it
   * whenever it is there, and the digit runs whole, decides the match.
   */
  predicate InVectorSuffix(s: string)
  {
    var a := DropOptionalWord(DropOptional(s, "ILP"), "Matrix");
    var n := DigitRun(a);
    n >= 1 &&
    match DropDimension(a[n..])
    case None => false
    case Some(b) => TypeThen(DropOptional(DropOptional(b, "N"), "u"), {"", "_", "v", "_v"})
  }

  /** `[ILP]?\d*N?u?(?:[bsifd]|i64)v` matched against the whole of `s`. */
  predicate InVectorSuffix2(s: string)
  {
    var a := DropOptional(s, "ILP");
    TypeThen(DropOptional(DropOptional(a[DigitRun(a)..], "N"), "u"), {"v"})
  }

  /** `Named([A-Z]\w*)` matched against the whole of `s`. */
  predicate IsNamedTail(s: string)
  {
    StartsWith(s, "Named") && |s| >= 6 && IsUpper(s[5]) && AllWordChars(s[6..])
  }

  /** Group 1 of `^gl(\w+?)[ILP]?(?:Matrix)?\d+(x\d+)?N?u?(?:[bsifd]|i64)_?v?$`, when it matches. */
  function VectorSuffixStem(name: string): Option<string>
  {
    if StartsWith(name, "gl") then LazyStem(name[2..], 1, InVectorSuffix) else None
  }

  /**
   * Groups 1 and 2 of `^gl(?:(Get)n?)?(\w+?)[ILP]?\d*N?u?(?:[bsifd]|i64)v$`, when it matches.
   * The optional `Get`, then the optional `n`, are tried first; a group that does not take
   * part reads as "".
   */
  function VectorSuffix2Groups(page: string): Option<(string, string)>
  {
    if !StartsWith(page, "gl") then None
    else
      var body := page[2..];
      var getN := if StartsWith(body, "Getn") then LazyStem(body[4..], 1, InVectorSuffix2) else None;
      var get := if StartsWith(body, "Get") then LazyStem(body[3..], 1, InVectorSuffix2) else None;
      if getN.Some? then Some(("Get", getN.value))
      else if get.Some? then Some(("Get", get.value))
      else
        match LazyStem(body, 1, InVectorSuffix2)
        case Some(w) => Some(("", w))
        case None => None
  }

  /** Groups 1 and 2 of `^gl(\w+?)?Named([A-Z]\w*)$`, when it matches; the optional group is tried first. */
  function NamedGroups(page: string): Option<(string, string)>
  {
    if !StartsWith(page, "gl") then None
    else
      var body := page[2..];
      match LazyStem(body, 1, IsNamedTail)
      case Some(w) => Some((w, body[|w| + 5..]))
      case None => if IsNamedTail(body) then Some(("", body[5..])) else None
  }

  /** The page after the first rewrite: the stem before a vector/type suffix. */
  function PageAfterVectorSuffix(name: string): string
  {
    match VectorSuffixStem(name)
    case None => name
    case Some(w) => "gl" + w
  }

  /** The page after the second rewrite, with `glScissorIndexedv` special-cased. */
  function PageAfterVectorSuffix2(page: string): string
  {
    match VectorSuffix2Groups(page)
    case None => page
    case Some(groups) => if page == "glScissorIndexedv" then "glScissorIndexed" else "gl" + groups.0 + groups.1
  }

  /** The page after the third rewrite, which drops `Named`. */
  function PageWithoutNamed(page: string): string
  {
    match NamedGroups(page)
    case None => page
    case Some(groups) => "gl" + groups.0 + groups.1
  }

  /** The docs.gl page of a native function. */
  function PageName(name: string): string
  {
    PageWithoutNamed(PageAfterVectorSuffix2(PageAfterVectorSuffix(name)))
  }

  /** Every rest the first rewrite accepts starts with `I`, `L`, `P`, `M` or a digit and holds a digit. */
  lemma VectorSuffixShape(s: string)
    requires InVectorSuffix(s)
    ensures |s| >= 2 && (s[0] in "ILPM" || IsDigit(s[0]))
    ensures exists i :: 0 <= i < |s| && IsDigit(s[i])
  {
    var a0 := DropOptional(s, "ILP");
    var a := DropOptionalWord(a0, "Matrix");
    assert a[0] == s[|s| - |a|];
    if a0 == s && a == s {
      assert IsDigit(s[0]);
    }
  }

  /** What a rest the second rewrite accepts can start with, and that it ends in `v`. */
  lemma VectorSuffix2Shape(s: string)
    requires InVectorSuffix2(s)
    ensures |s| >= 2 && s[|s| - 1] == 'v'
    ensures s[0] in "ILPNubsifd" || IsDigit(s[0])
    ensures s[0] in "bsfd" ==> s == [s[0], 'v']
    ensures s[0] == 'i' ==> s == "iv" || s == "i64v"
    ensures s[0] in "ILP" ==> s[1] in "Nubsifd" || IsDigit(s[1])
  {
    var a := DropOptional(s, "ILP");
    var b := a[DigitRun(a)..];
    var c := DropOptional(DropOptional(b, "N"), "u");
    assert c[|c| - 1] == s[|s| - 1];
    if s[0] in "ILP" {
      assert a == s[1..];
      if DigitRun(a) == 0 {
        assert b == a;
        if !(a[0] in "Nu") {
          assert c == a;
        }
      }
    } else {
      assert a == s;
      if DigitRun(a) == 0 {
        assert b == s;
        if !(s[0] in "Nu") {
          assert c == s;
        }
      }
    }
  }

  /** A name without digits is left alone by the first rewrite. */
  lemma NoDigitNoVectorSuffix(name: string)
    requires forall i :: 0 <= i < |name| ==> !IsDigit(name[i])
    ensures VectorSuffixStem(name) == None
  {
    if StartsWith(name, "gl") {
      var body := name[2..];
      var r := LazyStem(body, 1, InVectorSuffix);
      if r.Some? {
        VectorSuffixShape(body[|r.value|..]);
        assert false;
      }
    }
  }

  /** A rest that does not end in `v` has no stem before a second-pattern suffix. */
  lemma NoVNoStem2(body: string)
    requires body == [] || body[|body| - 1] != 'v'
    ensures LazyStem(body, 1, InVectorSuffix2) == None
  {
    var r := LazyStem(body, 1, InVectorSuffix2);
    if r.Some? {
      VectorSuffix2Shape(body[|r.value|..]);
      assert false;
    }
  }

  /** A page that does not end in `v` is left alone by the second rewrite. */
  lemma NoVNoVectorSuffix2(page: string)
    requires page == [] || page[|page| - 1] != 'v'
    ensures VectorSuffix2Groups(page) == None
  {
    if StartsWith(page, "gl") {
      var body := page[2..];
      NoVNoStem2(body);
      if StartsWith(body, "Getn") {
        NoVNoStem2(body[4..]);
      }
      if StartsWith(body, "Get") {
        NoVNoStem2(body[3..]);
      }
    }
  }

  lemma NamedTailStartsWithN(s: string)
    requires IsNamedTail(s)
    ensures s[0] == 'N'
  {
  }

  /** A page without an upper-case `N` is left alone by the third rewrite. */
  lemma NoUpperNNoNamed(page: string)
    requires 'N' !in page
    ensures NamedGroups(page) == None
  {
    if StartsWith(page, "gl") {
      var body := page[2..];
      var r := LazyStem(body, 1, IsNamedTail);
      if r.Some? {
        NamedTailStartsWithN(body[|r.value|..]);
        assert false;
      }
      if IsNamedTail(body) {
        assert false;
      }
    }
  }

  lemma RejectSuffix2(s: string)
    requires |s| >= 2
    requires !(s[0] in "ILPNubsifd" || IsDigit(s[0])) || (s[0] in "bsifd" && |s| > 4)
             || (s[0] in "ILP" && !(s[1] in "Nubsifd" || IsDigit(s[1])))
    ensures !InVectorSuffix2(s)
  {
    if InVectorSuffix2(s) {
      VectorSuffix2Shape(s);
      assert false;
    }
  }

  lemma ScissorRejects(body: string)
    requires body == "ScissorIndexedv"
    ensures forall j | 1 <= j < 13 :: !IsStem(body, j, InVectorSuffix2)
  {
    assert body[1] == 'c' && body[2] == 'i' && body[3] == 's' && body[4] == 's' && body[5] == 'o' && body[6] == 'r';
    assert body[7] == 'I' && body[8] == 'n' && body[9] == 'd' && body[10] == 'e' && body[11] == 'x' && body[12] == 'e';
    forall j | 1 <= j < 13 ensures !InVectorSuffix2(body[j..]) {
      var s := body[j..];
      assert s[0] == body[j];
      if j == 7 {
        assert s[1] == 'n';
      }
      RejectSuffix2(s);
    }
  }

  lemma ScissorStem(body: string)
    requires body == "ScissorIndexedv"
    ensures LazyStem(body, 1, InVectorSuffix2) == Some(body[..13])
  {
    assert body[13..] == "dv";
    assert InVectorSuffix2("dv") by {
      assert DropOptional("dv", "ILP") == "dv";
      assert DigitRun("dv") == 0;
      assert "dv"[0..] == "dv";
      assert DropOptional("dv", "N") == "dv";
      assert DropOptional("dv", "u") == "dv";
      assert "dv"[1..] == "v";
    }
    assert AllWordChars(body[..13]);
    assert IsStem(body, 13, InVectorSuffix2);
    ScissorRejects(body);
    var r := LazyStem(body, 1, InVectorSuffix2);
    assert r.Some?;
    assert |r.value| == 13;
  }

  /** A `gl` name: the first rewrite's group is the lazy stem of the rest. */
  lemma VectorSuffixStemOf(body: string)
    ensures VectorSuffixStem("gl" + body) == LazyStem(body, 1, InVectorSuffix)
  {
    assert ("gl" + body)[2..] == body;
  }

  /** A `gl` name whose rest does not start with `G`: the second rewrite has no `Get` group. */
  lemma VectorSuffix2GroupsWithoutGet(body: string)
    requires body == [] || body[0] != 'G'
    ensures LazyStem(body, 1, InVectorSuffix2).None? ==> VectorSuffix2Groups("gl" + body) == None
    ensures LazyStem(body, 1, InVectorSuffix2).Some? ==>
      VectorSuffix2Groups("gl" + body) == Some(("", LazyStem(body, 1, InVectorSuffix2).value))
  {
    assert ("gl" + body)[2..] == body;
    assert !StartsWith(body, "Getn") && !StartsWith(body, "Get");
  }

  /** A `gl` name that is `Named` and a tail without an earlier stem: the third rewrite keeps the tail. */
  lemma NamedGroupsWithoutStem(body: string)
    requires LazyStem(body, 1, IsNamedTail).None? && IsNamedTail(body)
    ensures NamedGroups("gl" + body) == Some(("", body[5..]))
  {
    assert ("gl" + body)[2..] == body;
  }

  /** On `glScissorIndexedv` the second pattern takes `d` for the double type and leaves `glScissorIndexe`. */
  lemma ScissorIndexedGroups()
    ensures VectorSuffix2Groups("glScissorIndexedv") == Some(("", "ScissorIndexe"))
  {
    var body := "ScissorIndexedv";
    assert "glScissorIndexedv" == "gl" + body;
    ScissorStem(body);
    VectorSuffix2GroupsWithoutGet(body);
    assert body[..13] == "ScissorIndexe";
  }

  /** `glScissorIndexedv` has no digit, so the first rewrite keeps it. */
  lemma ScissorIndexedKeepsVectorSuffix()
    ensures PageAfterVectorSuffix("glScissorIndexedv") == "glScissorIndexedv"
  {
    var page := "glScissorIndexedv";
    assert forall i | 0 <= i < |page| :: !IsDigit(page[i]) by {
      assert page == ['g', 'l', 'S', 'c', 'i', 's', 's', 'o', 'r', 'I', 'n', 'd', 'e', 'x', 'e', 'd', 'v'];
    }
    NoDigitNoVectorSuffix(page);
  }

  /** `glScissorIndexed` has no upper-case `N`, so the third rewrite keeps it. */
  lemma ScissorIndexedKeepsNamed()
    ensures PageWithoutNamed("glScissorIndexed") == "glScissorIndexed"
  {
    assert 'N' !in "glScissorIndexed" by {
      assert "glScissorIndexed" == ['g', 'l', 'S', 'c', 'i', 's', 's', 'o', 'r', 'I', 'n', 'd', 'e', 'x', 'e', 'd'];
    }
    NoUpperNNoNamed("glScissorIndexed");
  }

  /** The special case keeps the page of `glScissorIndexedv` at `glScissorIndexed`. */
  lemma ScissorIndexedPage()
    ensures PageName("glScissorIndexedv") == "glScissorIndexed"
  {
    ScissorIndexedKeepsVectorSuffix();
    ScissorIndexedGroups();
    ScissorIndexedKeepsNamed();
  }

  /** Without an `N` after the first character, no stem leaves a `Named…` tail. */
  lemma NoLaterNamedTail(body: string)
    requires forall j :: 1 <= j < |body| ==> body[j] != 'N'
    ensures LazyStem(body, 1, IsNamedTail) == None
  {
    var r := LazyStem(body, 1, IsNamedTail);
    if r.Some? {
      NamedTailStartsWithN(body[|r.value|..]);
      assert false;
    }
  }

  lemma NamedStem(body: string)
    requires body == "NamedBufferData"
    ensures LazyStem(body, 1, IsNamedTail) == None
  {
    assert body == ['N', 'a', 'm', 'e', 'd', 'B', 'u', 'f', 'f', 'e', 'r', 'D', 'a', 't', 'a'];
    NoLaterNamedTail(body);
  }

  lemma NamedTailOfBufferData(body: string)
    requires body == "NamedBufferData"
    ensures IsNamedTail(body) && body[5..] == "BufferData"
  {
    assert body == ['N', 'a', 'm', 'e', 'd', 'B', 'u', 'f', 'f', 'e', 'r', 'D', 'a', 't', 'a'];
    assert body[..5] == "Named";
  }

  /** The third pattern takes `Named` out of `glNamedBufferData`. */
  lemma NamedBufferDataGroups()
    ensures NamedGroups("glNamedBufferData") == Some(("", "BufferData"))
  {
    var body := "NamedBufferData";
    assert "glNamedBufferData" == "gl" + body;
    NamedStem(body);
    NamedTailOfBufferData(body);
    NamedGroupsWithoutStem(body);
  }

  lemma NamedBufferDataKeepsSuffixes()
    ensures PageAfterVectorSuffix2(PageAfterVectorSuffix("glNamedBufferData")) == "glNamedBufferData"
  {
    var page := "glNamedBufferData";
    assert forall i | 0 <= i < |page| :: !IsDigit(page[i]) by {
      assert page == ['g', 'l', 'N', 'a', 'm', 'e', 'd', 'B', 'u', 'f', 'f', 'e', 'r', 'D', 'a', 't', 'a'];
    }
    NoDigitNoVectorSuffix(page);
    assert page[|page| - 1] == 'a';
    NoVNoVectorSuffix2(page);
  }

  lemma NamedBufferDataDropsNamed()
    ensures PageWithoutNamed("glNamedBufferData") == "glBufferData"
  {
    NamedBufferDataGroups();
    GlBufferData();
  }

  lemma GlBufferData()
    ensures "gl" + "" + "BufferData" == "glBufferData"
  {
    assert "gl" + "" + "BufferData" == ['g', 'l', 'B', 'u', 'f', 'f', 'e', 'r', 'D', 'a', 't', 'a'];
  }

  /** `Named` is dropped: the page of `glNamedBufferData` is `glBufferData`. */
  lemma NamedBufferDataPage()
    ensures PageName("glNamedBufferData") == "glBufferData"
  {
    NamedBufferDataKeepsSuffixes();
    NamedBufferDataDropsNamed();
  }

  lemma RejectSuffix(s: string)
    requires |s| >= 1 && !(s[0] in "ILPM" || IsDigit(s[0]))
    ensures !InVectorSuffix(s)
  {
    if InVectorSuffix(s) {
      VectorSuffixShape(s);
      assert false;
    }
  }

  lemma OneIvIsVectorSuffix()
    ensures InVectorSuffix("1iv")
  {
    assert DropOptional("1iv", "ILP") == "1iv";
    assert DropOptionalWord("1iv", "Matrix") == "1iv";
    assert "1iv"[1..] == "iv";
    assert DigitRun("iv") == 0;
    assert DigitRun("1iv") == 1;
    assert DropDimension("iv") == Some("iv");
    assert DropOptional("iv", "N") == "iv";
    assert DropOptional("iv", "u") == "iv";
    assert "iv"[1..] == "v";
  }

  lemma UniformStem(body: string)
    requires body == "Uniform1iv"
    ensures LazyStem(body, 1, InVectorSuffix) == Some(body[..7])
  {
    assert body == ['U', 'n', 'i', 'f', 'o', 'r', 'm', '1', 'i', 'v'];
    forall j | 1 <= j < 7 ensures !InVectorSuffix(body[j..]) {
      assert body[j..][0] == body[j];
      RejectSuffix(body[j..]);
    }
    assert body[7..] == "1iv";
    OneIvIsVectorSuffix();
    assert IsStem(body, 7, InVectorSuffix);
    var r := LazyStem(body, 1, InVectorSuffix);
    assert r.Some?;
    assert |r.value| == 7;
  }

  lemma UniformKeepsOtherSuffixes()
    ensures PageWithoutNamed(PageAfterVectorSuffix2("glUniform")) == "glUniform"
  {
    var p := "glUniform";
    assert p[|p| - 1] == 'm';
    NoVNoVectorSuffix2(p);
    assert 'N' !in p by {
      assert p == ['g', 'l', 'U', 'n', 'i', 'f', 'o', 'r', 'm'];
    }
    NoUpperNNoNamed(p);
  }

  /** The first pattern drops a vector/type suffix: `glUniform1iv` has stem `Uniform`. */
  lemma Uniform1ivStem()
    ensures VectorSuffixStem("glUniform1iv") == Some("Uniform")
  {
    var body := "Uniform1iv";
    assert "glUniform1iv" == "gl" + body;
    VectorSuffixStemOf(body);
    UniformStemValue(body);
  }

  lemma UniformStemValue(body: string)
    requires body == "Uniform1iv"
    ensures LazyStem(body, 1, InVectorSuffix) == Some("Uniform")
  {
    UniformStem(body);
    assert body[..7] == "Uniform";
  }

  /** A vector/type suffix is dropped: the page of `glUniform1iv` is `glUniform`. */
  lemma Uniform1ivPage()
    ensures PageName("glUniform1iv") == "glUniform"
  {
    Uniform1ivStem();
    GlUniform();
    UniformKeepsOtherSuffixes();
  }

  lemma GlUniform()
    ensures "gl" + "Uniform" == "glUniform"
  {
    assert "gl" + "Uniform" == ['g', 'l', 'U', 'n', 'i', 'f', 'o', 'r', 'm'];
  }

  const NOTICE: string := " - <em>This function is deprecated and unavailable in the Core profile</em>"

  /** The link to the reference page: the GL3 pages for deprecated functions, the GL4 pages otherwise. */
  function ReferenceLink(page: string, deprecated: bool, url: (string, string) -> string): string
  {
    url("http://docs.gl/gl" + (if deprecated then "3" else "4") + "/" + page, "Reference Page")
  }

  /** The text injected into the javadoc: the link, and the deprecation notice after it for a deprecated function. */
  function InjectedJavadoc(name: string, deprecated: bool, url: (string, string) -> string): string
  {
    var link := ReferenceLink(PageName(name), deprecated, url);
    if deprecated then link + NOTICE else link
  }

  lemma InjectedJavadocShape(name: string, deprecated: bool, url: (string, string) -> string)
    ensures deprecated ==>
      InjectedJavadoc(name, deprecated, url) == url("http://docs.gl/gl3/" + PageName(name), "Reference Page") + NOTICE
    ensures !deprecated ==>
      InjectedJavadoc(name, deprecated, url) == url("http://docs.gl/gl4/" + PageName(name), "Reference Page")
  {
    assert "http://docs.gl/gl" + "3" + "/" == "http://docs.gl/gl3/";
    assert "http://docs.gl/gl" + "4" + "/" == "http://docs.gl/gl4/";
  }

  /** The tail every non-empty javadoc ends with: an empty line, the `@see` line, the closing line. */
  function SeeTail(injected: string, t: string): string
  {
    "\n" + t + " * " + "\n" + t + " * @see " + injected + "\n" + t + " */\n"
  }

  /**
   * The comment `printOpenGLJavaDoc` prints with indentation `t` for a function's documentation
   * and injected text. Empty documentation gives a one-line comment around the injected text.
   * Otherwise the comment delimiters are cut from the documentation (`substring` throws when it
   * is too short for them) and the injected text follows as an `@see` line.
   */
  function CommentWithLink(documentation: string, injected: string, t: string): (r: Result<string>)
    ensures documentation == "" ==> r == Ok(t + "/** " + injected + " */\n")
  {
    if documentation == "" then Ok(t + "/** " + injected + " */\n")
    else
      var body :=
        if '\n' !in documentation then
          match Substring(documentation, |t + "/** "|, |documentation| - |" */"|)
          case Err(e) => Err(e)
          case Ok(text) => Ok(t + "/**\n" + t + " * " + text)
        else
          Substring(documentation, 0, |documentation| - |"\n" + t + " */"|);
      match body
      case Err(e) => Err(e)
      case Ok(text) => Ok(text + SeeTail(injected, t))
  }

  /** A one-line comment `t/** text */` is reopened over several lines with its text kept and the link added. */
  lemma SingleLineJavadoc(text: string, injected: string, t: string)
    requires '\n' !in text && '\n' !in t
    ensures CommentWithLink(t + "/** " + text + " */", injected, t)
      == Ok(t + "/**\n" + t + " * " + text + SeeTail(injected, t))
  {
    var doc := t + "/** " + text + " */";
    assert doc[|t + "/** "|..|doc| - |" */"|] == text;
    assert '\n' !in doc by {
      forall i | 0 <= i < |doc| ensures doc[i] != '\n' {
        if i < |t| {
          assert doc[i] == t[i];
        } else if |t| + 4 <= i < |t| + 4 + |text| {
          assert doc[i] == text[i - |t| - 4];
        }
      }
    }
  }

  /** A comment of several lines loses its closing line, which comes back after the `@see` line. */
  lemma MultiLineJavadoc(head: string, injected: string, t: string)
    ensures CommentWithLink(head + "\n" + t + " */", injected, t) == Ok(head + SeeTail(injected, t))
  {
    var doc := head + "\n" + t + " */";
    assert doc[|head|] == '\n';
    assert doc[0..|doc| - |"\n" + t + " */"|] == head;
  }

  /** `printOpenGLJavaDoc` for a native function name. */
  function OpenGLJavadoc(documentation: string, name: string, deprecated: bool, url: (string, string) -> string, t: string): Result<string>
  {
    CommentWithLink(documentation, InjectedJavadoc(name, deprecated, url), t)
  }

  /** `printCustomJavadoc`: only functions of templates whose name starts with `GL` get the OpenGL javadoc. */
  function CustomJavadoc(templateName: string, documentation: string, nativeName: string, deprecated: bool,
                         url: (string, string) -> string, t: string): (r: Result<Option<string>>)
    ensures !StartsWith(templateName, "GL") <==> r == Ok(None)
  {
    if StartsWith(templateName, "GL") then
      match OpenGLJavadoc(documentation, nativeName, deprecated, url, t)
      case Err(e) => Err(e)
      case Ok(text) => Ok(Some(text))
    else
      Ok(None)
  }
}

=== FILE: names.dfy ===
/**
 * Names the OpenGL binding derives from a template: the capability field name, whether a
 * template is a core-only version class, the core/GLX version links and the Khronos registry
 * links.
 */
module Names {
  import opened Wrappers
  import opened Text
  import opened GLTypes

  /**
   * The boolean field of `GLCapabilities` that reports the template. A GL template whose name
   * starts with its template prefix reads `OpenGL` followed by its name after the first two
   * characters (`GL45` gives `OpenGL45`); another prefix keeps the name; a name without the
   * prefix gets `prefixTemplate_` in front. `substring(2)` throws on a name shorter than two.
   */
  function CapName(c: NativeClass): (r: Result<string>)
    ensures r.Err? <==> StartsWith(c.templateName, c.prefixTemplate) && c.prefix == "GL" && |c.templateName| < 2
  {
    if StartsWith(c.templateName, c.prefixTemplate) then
      if c.prefix == "GL" then
        if |c.templateName| < 2 then Err(StringIndexOutOfBounds(2, |c.templateName|, |c.templateName|))
        else Ok("OpenGL" + c.templateName[2..])
      else
        Ok(c.templateName)
    else
      Ok(c.prefixTemplate + "_" + c.templateName)
  }

  /** Recovers a GL template name from its capability field name. */
  function GLTemplateOfCapName(capName: string): string
  {
    if StartsWith(capName, "OpenGL") then "GL" + capName[6..] else capName
  }

  /** For a GL template (`GL` prefix, name starting with `GL`), the capability name determines the template. */
  lemma CapNameRoundTrip(c: NativeClass)
    requires c.prefix == "GL" && c.prefixTemplate == "GL" && StartsWith(c.templateName, "GL")
    ensures CapName(c).Ok? && StartsWith(CapName(c).value, "OpenGL")
    ensures GLTemplateOfCapName(CapName(c).value) == c.templateName
  {
    var cap := CapName(c).value;
    assert cap[6..] == c.templateName[2..];
    assert c.templateName == c.templateName[..2] + c.templateName[2..];
  }

  /**
   * The three branches: a `GL` template that starts with its template prefix is named `OpenGL`
   * followed by its name after two characters; a template of another prefix that starts with
   * its template prefix keeps its name; a template that does not start with its template prefix
   * is named `prefixTemplate_templateName`. Only the first can fail.
   */
  lemma CapNameBranches(c: NativeClass)
    ensures StartsWith(c.templateName, c.prefixTemplate) && c.prefix == "GL" && |c.templateName| >= 2 ==>
      CapName(c) == Ok("OpenGL" + c.templateName[2..])
    ensures StartsWith(c.templateName, c.prefixTemplate) && c.prefix != "GL" ==> CapName(c) == Ok(c.templateName)
    ensures !StartsWith(c.templateName, c.prefixTemplate) ==>
      CapName(c) == Ok(c.prefixTemplate + "_" + c.templateName)
      && CapName(c).value[|c.prefixTemplate| + 1..] == c.templateName
  {
  }

  /**
   * Among GL templates (prefix and template prefix both `GL`) two different template names never
   * share a capability field, whether or not they start with `GL`.
   */
  lemma CapNameInjective(c: NativeClass, d: NativeClass)
    requires c.prefix == "GL" && c.prefixTemplate == "GL"
    requires d.prefix == "GL" && d.prefixTemplate == "GL"
    requires CapName(c).Ok? && CapName(d).Ok?
    requires c.templateName != d.templateName
    ensures CapName(c).value != CapName(d).value
  {
    var s, t := c.templateName, d.templateName;
    if StartsWith(s, "GL") && StartsWith(t, "GL") {
      CapNameRoundTrip(c);
      CapNameRoundTrip(d);
    } else if StartsWith(s, "GL") {
      assert CapName(c).value[0] == 'O' != 'G' == CapName(d).value[0];
    } else if StartsWith(t, "GL") {
      assert CapName(c).value[0] == 'G' != 'O' == CapName(d).value[0];
    } else {
      assert CapName(c).value[3..] == s && CapName(d).value[3..] == t;
    }
  }

  /** `GL\d\dC`, matched against the whole template name. */
  predicate IsCore(templateName: string)
  {
    |templateName| == 5 && templateName[0] == 'G' && templateName[1] == 'L'
    && IsDigit(templateName[2]) && IsDigit(templateName[3]) && templateName[4] == 'C'
  }

  /** The template of the core-profile class of OpenGL `major.minor`. */
  function CoreTemplateName(major: char, minor: char): string
  {
    "GL" + [major, minor] + "C"
  }

  /** Core templates are exactly the `GLxyC` names with two decimal digits `x`, `y`. */
  lemma IsCoreExactly(templateName: string)
    ensures IsCore(templateName) <==>
      exists major, minor :: IsDigit(major) && IsDigit(minor) && templateName == CoreTemplateName(major, minor)
  {
    if IsCore(templateName) {
      assert templateName == CoreTemplateName(templateName[2], templateName[3]);
    }
  }

  /**
   * `core`: a link to the version class, reading `OpenGL x.y` from the third and fourth
   * characters. The third character is read first, so the exception names the first of the two
   * indices that is out of range.
   */
  function CoreLink(c: NativeClass): (r: Result<string>)
    ensures r.Ok? <==> |c.className| >= 4
    ensures r.Err? ==> (r.error.StringIndexOutOfBounds? && 2 <= r.error.begin <= 3
      && r.error.end == r.error.begin + 1 && r.error.length == |c.className| <= r.error.begin
      && (r.error.begin == 3 ==> |c.className| == 3))
  {
    if |c.className| < 3 then Err(StringIndexOutOfBounds(2, 3, |c.className|))
    else if |c.className| < 4 then Err(StringIndexOutOfBounds(3, 4, |c.className|))
    else Ok("{@link " + c.className + " OpenGL " + [c.className[2]] + "." + [c.className[3]] + "}")
  }

  /**
   * `glx`: a link reading `GLX x.y` from the fourth and fifth characters; the exception names
   * the first of the two indices that is out of range.
   */
  function GlxLink(c: NativeClass): (r: Result<string>)
    ensures r.Ok? <==> |c.className| >= 5
    ensures r.Err? ==> (r.error.StringIndexOutOfBounds? && 3 <= r.error.begin <= 4
      && r.error.end == r.error.begin + 1 && r.error.length == |c.className| <= r.error.begin
      && (r.error.begin == 4 ==> |c.className| == 4))
  {
    if |c.className| < 4 then Err(StringIndexOutOfBounds(3, 4, |c.className|))
    else if |c.className| < 5 then Err(StringIndexOutOfBounds(4, 5, |c.className|))
    else Ok("{@link " + c.className + " GLX " + [c.className[3]] + "." + [c.className[4]] + "}")
  }

  /** `promoted` */
  function Promoted(c: NativeClass): (r: Result<string>)
    ensures r.Ok? <==> |c.className| >= 4
    ensures r.Err? ==> r == Err(CoreLink(c).error)
    ensures r.Ok? ==> r.value == "Promoted to core in " + CoreLink(c).value + "."
  {
    match CoreLink(c)
    case Err(e) => Err(e)
    case Ok(core) => Ok("Promoted to core in " + core + ".")
  }

  /** For the class of a version `GLxy` or `GLxyC`, the core link names version `x.y`. */
  lemma CoreLinkNamesVersion(c: NativeClass, major: char, minor: char, rest: string)
    requires c.className == "GL" + [major, minor] + rest
    ensures CoreLink(c) == Ok("{@link " + c.className + " OpenGL " + [major] + "." + [minor] + "}")
  {
    assert c.className[2] == major && c.className[3] == minor;
  }

  /** For the class of a GLX version `GLXxy…`, the link names version `x.y`. */
  lemma GlxLinkNamesVersion(c: NativeClass, major: char, minor: char, rest: string)
    requires c.className == "GLX" + [major, minor] + rest
    ensures GlxLink(c) == Ok("{@link " + c.className + " GLX " + [major] + "." + [minor] + "}")
  {
    assert c.className[3] == major && c.className[4] == minor;
  }

  const REGISTRY: string := "https://www.khronos.org/registry/OpenGL/extensions/"

  /**
   * The group of an extension name, as `([A-Z]+)_\w+` matched against the whole name captures it:
   * the leading run of upper-case letters, which must be followed by `_` and at least one word
   * character. Any other name throws `IllegalStateException`.
   */
  function RegistryGroup(templateName: string): (r: Result<string>)
    ensures r.Ok? ==> StartsWith(templateName, r.value + "_")
    ensures r.Err? ==> r.error.IllegalState?
  {
    var n := UpperRun(templateName);
    if 1 <= n && n + 1 < |templateName| && templateName[n] == '_' && AllWordChars(templateName[n + 1..]) then
      Ok(templateName[..n])
    else
      Err(IllegalState("Non-standard extension name: " + templateName))
  }

  /** `group` is one or more upper-case letters and `rest` one or more word characters. */
  predicate IsGroupAndName(group: string, rest: string)
  {
    |group| >= 1 && (forall i :: 0 <= i < |group| ==> IsUpper(group[i])) && |rest| >= 1 && AllWordChars(rest)
  }

  /** Whatever yields a group has the form `GROUP_rest`. */
  lemma RegistryGroupSplits(templateName: string)
    requires RegistryGroup(templateName).Ok?
    ensures var group := RegistryGroup(templateName).value;
      var rest := templateName[|group| + 1..];
      IsGroupAndName(group, rest) && templateName == group + "_" + rest
  {
  }

  /** A name `GROUP_rest` yields its group. */
  lemma RegistryGroupOfName(group: string, rest: string)
    requires IsGroupAndName(group, rest)
    ensures RegistryGroup(group + "_" + rest) == Ok(group)
  {
    var name := group + "_" + rest;
    UpperRunOfGroup(group, rest);
    assert name[..|group|] == group;
    assert name[|group| + 1..] == rest;
  }

  lemma {:induction false} UpperRunOfGroup(group: string, rest: string)
    requires forall i :: 0 <= i < |group| ==> IsUpper(group[i])
    ensures UpperRun(group + "_" + rest) == |group|
  {
    if group != [] {
      assert (group + "_" + rest)[1..] == group[1..] + "_" + rest;
      UpperRunOfGroup(group[1..], rest);
    }
  }

  /** `registryLink`: the extension's specification under its postfix, or under its group when the postfix is empty. */
  function RegistryLink(c: NativeClass, url: (string, string) -> string): (r: Result<string>)
    ensures r.Ok? <==> c.postfix != "" || RegistryGroup(c.templateName).Ok?
    ensures c.postfix != "" ==> r == Ok(RegistryLinkToSpec(c, c.templateName, url))
    ensures c.postfix == "" && RegistryGroup(c.templateName).Ok? ==>
      r == Ok(url(REGISTRY + RegistryGroup(c.templateName).value + "/" + c.templateName + ".txt", c.templateName))
    ensures r.Err? ==> r.error == IllegalState("Non-standard extension name: " + c.templateName)
  {
    if c.postfix != "" then
      Ok(url(REGISTRY + c.postfix + "/" + c.templateName + ".txt", c.templateName))
    else
      match RegistryGroup(c.templateName)
      case Err(e) => Err(e)
      case Ok(group) => Ok(url(REGISTRY + group + "/" + c.templateName + ".txt", c.templateName))
  }

  /** `registryLink(group, name)` */
  function RegistryLinkInGroup(c: NativeClass, group: string, name: string, url: (string, string) -> string): string
  {
    url(REGISTRY + group + "/" + group + "_" + name + ".txt", c.templateName)
  }

  /** `registryLink(spec)` */
  function RegistryLinkToSpec(c: NativeClass, spec: string, url: (string, string) -> string): string
  {
    url(REGISTRY + c.postfix + "/" + spec + ".txt", c.templateName)
  }

  /** `registryLinkTo(group, name)` */
  function RegistryLinkTo(group: string, name: string, url: (string, string) -> string): string
  {
    url(REGISTRY + group + "/" + group + "_" + name + ".txt", group + "_" + name)
  }

  /**
   * The explicit overloads agree with the derived link: a template named `GROUP_name` without a
   * postfix links to the same page as `registryLink(GROUP, name)` and `registryLinkTo(GROUP, name)`;
   * a template with a postfix links like `registryLink(templateName)`.
   */
  lemma RegistryLinkOverloadsAgree(c: NativeClass, group: string, name: string, url: (string, string) -> string)
    requires c.postfix == "" && c.templateName == group + "_" + name
    requires |group| >= 1 && (forall i :: 0 <= i < |group| ==> IsUpper(group[i]))
    requires |name| >= 1 && AllWordChars(name)
    ensures RegistryLink(c, url) == Ok(RegistryLinkInGroup(c, group, name, url))
    ensures RegistryLink(c, url) == Ok(RegistryLinkTo(group, name, url))
    ensures RegistryLink(c.(postfix := group), url) == Ok(RegistryLinkToSpec(c.(postfix := group), c.templateName, url))
  {
    RegistryGroupOfName(group, name);
    assert REGISTRY + group + "/" + c.templateName + ".txt" == REGISTRY + group + "/" + group + "_" + name + ".txt";
  }
}

=== FILE: ordinals.dfy ===
/**
 * The list of functions that get an address field in `GLCapabilities`, and the ordinal of each
 * function: its index in that list.
 */
module Ordinals {
  import opened Wrappers
  import opened Seqs
  import opened GLTypes

  predicate NotReused(f: Func)
  {
    !f.reuse
  }

  /**
   * `functions`: the functions of the classes that have native functions, in class order,
   * without those marked `Reuse`.
   */
  function Functions(classes: seq<NativeClass>): (r: seq<Func>)
    ensures forall i :: 0 <= i < |r| ==> !r[i].reuse
  {
    if classes == [] then []
    else (if classes[0].hasNativeFunctions then Filter(classes[0].functions, NotReused) else [])
         + Functions(classes[1..])
  }

  /** A function is listed exactly when it belongs to a class with native functions and is not reused. */
  lemma {:induction false} FunctionsMembers(classes: seq<NativeClass>, f: Func)
    ensures f in Functions(classes) <==>
      !f.reuse && exists c :: c in classes && c.hasNativeFunctions && f in c.functions
  {
    if classes != [] {
      FunctionsMembers(classes[1..], f);
      var c := classes[0];
      var own := if c.hasNativeFunctions then Filter(c.functions, NotReused) else [];
      assert Functions(classes) == own + Functions(classes[1..]);
      if f in own {
        var i :| 0 <= i < |own| && own[i] == f;
      }
      if c.hasNativeFunctions && f in c.functions && !f.reuse {
        var i :| 0 <= i < |c.functions| && c.functions[i] == f;
      }
      assert forall d :: d in classes <==> d == c || d in classes[1..];
    }
  }

  /**
   * `functionOrdinals`: each listed name mapped to its index. `toMap` keeps the last pair of a
   * repeated key, so a name listed twice gets the index of its last occurrence.
   */
  function FunctionOrdinals(fs: seq<Func>): (m: map<string, nat>)
    ensures forall name :: name in m ==> m[name] < |fs|
  {
    if fs == [] then map[]
    else FunctionOrdinals(fs[..|fs| - 1])[fs[|fs| - 1].name := |fs| - 1]
  }

  /**
   * Every listed name has an ordinal, each ordinal indexes a function of that name, and it
   * is the last such index (a later duplicate overwrites an earlier entry).
   */
  lemma {:induction false} FunctionOrdinalsSpec(fs: seq<Func>)
    ensures forall i :: 0 <= i < |fs| ==> fs[i].name in FunctionOrdinals(fs)
    ensures forall name :: name in FunctionOrdinals(fs) ==> fs[FunctionOrdinals(fs)[name]].name == name
    ensures forall name, j :: name in FunctionOrdinals(fs) && FunctionOrdinals(fs)[name] < j < |fs| ==> fs[j].name != name
  {
    if fs != [] {
      var init, last := fs[..|fs| - 1], fs[|fs| - 1];
      FunctionOrdinalsSpec(init);
      var prev, m := FunctionOrdinals(init), FunctionOrdinals(fs);
      assert m == prev[last.name := |fs| - 1];
      forall i | 0 <= i < |fs| ensures fs[i].name in m {
        if i < |init| {
          assert init[i] == fs[i];
        }
      }
      forall name | name in m ensures fs[m[name]].name == name {
        if name != last.name {
          assert init[prev[name]] == fs[prev[name]];
        }
      }
      forall name, j | name in m && m[name] < j < |fs| ensures fs[j].name != name {
        if name != last.name && j < |init| {
          assert init[j] == fs[j];
        }
      }
    }
  }

  /** With distinct names, the ordinal of every listed function is its own index. */
  lemma OrdinalIsIndex(fs: seq<Func>, i: nat)
    requires forall j, k :: 0 <= j < k < |fs| ==> fs[j].name != fs[k].name
    requires i < |fs|
    ensures fs[i].name in FunctionOrdinals(fs) && FunctionOrdinals(fs)[fs[i].name] == i
  {
    FunctionOrdinalsSpec(fs);
  }

  /**
   * `getFunctionOrdinal`: the index of the function's name among the listed functions; `!!`
   * throws `NullPointerException` for a name that is not listed.
   */
  function GetFunctionOrdinal(classes: seq<NativeClass>, func: Func): (r: Result<nat>)
    ensures r.Ok? <==> exists g :: g in Functions(classes) && g.name == func.name
    ensures r.Ok? ==> r.value < |Functions(classes)| && Functions(classes)[r.value].name == func.name
    ensures r.Err? ==> r.error == NullPointer
  {
    var fs := Functions(classes);
    var m := FunctionOrdinals(fs);
    FunctionOrdinalsSpec(fs);
    if func.name in m then Ok(m[func.name])
    else
      assert forall g :: g in fs ==> g.name != func.name by {
        forall g | g in fs ensures g.name != func.name {
          var i :| 0 <= i < |fs| && fs[i] == g;
        }
      }
      Err(NullPointer)
  }
}

=== FILE: seqs.dfy ===
/** Sequence pipelines: `filter`, `map` and a `flatMap` that stops at the first exception. */
module Seqs {
  import opened Wrappers

  /** `filter { p(it) }`, which keeps the order of what it keeps. */
  function Filter<T>(xs: seq<T>, p: T -> bool): (r: seq<T>)
    ensures |r| <= |xs|
    ensures forall i :: 0 <= i < |r| ==> r[i] in xs && p(r[i])
    ensures forall i :: 0 <= i < |xs| && p(xs[i]) ==> xs[i] in r
  {
    if xs == [] then [] else (if p(xs[0]) then [xs[0]] else []) + Filter(xs[1..], p)
  }

  lemma FilterFirst<T>(xs: seq<T>, p: T -> bool)
    requires Filter(xs, p) != []
    ensures exists i :: 0 <= i < |xs| && xs[i] == Filter(xs, p)[0] && p(xs[i])
  {
  }

  /** Two filters agree on every sequence whose elements they classify alike. */
  lemma {:induction false} FilterAgrees<T>(xs: seq<T>, p: T -> bool, q: T -> bool)
    requires forall x :: x in xs ==> p(x) == q(x)
    ensures Filter(xs, p) == Filter(xs, q)
  {
    if xs != [] {
      FilterAgrees(xs[1..], p, q);
    }
  }

  function Map<T, U>(f: T -> U, xs: seq<T>): (r: seq<U>)
    ensures |r| == |xs| && forall i :: 0 <= i < |xs| ==> r[i] == f(xs[i])
  {
    seq(|xs|, i requires 0 <= i < |xs| => f(xs[i]))
  }

  /**
   * `forEach` over `xs` where each step emits the lines `f(x)` or throws: the lines of
   * all steps in order, or the exception of the first step that throws.
   */
  function FlatMap<T>(xs: seq<T>, f: T -> Result<seq<string>>): (r: Result<seq<string>>)
    decreases |xs|
  {
    if xs == [] then Ok([])
    else match FlatMap(xs[..|xs| - 1], f)
      case Err(e) => Err(e)
      case Ok(init) =>
        match f(xs[|xs| - 1])
        case Err(e) => Err(e)
        case Ok(last) => Ok(init + last)
  }

  /** One more step of a `forEach` whose earlier steps did not throw. */
  lemma FlatMapSnoc<T>(xs: seq<T>, x: T, f: T -> Result<seq<string>>)
    requires FlatMap(xs, f).Ok?
    ensures FlatMap(xs + [x], f) ==
      match f(x)
      case Err(e) => Err(e)
      case Ok(last) => Ok(FlatMap(xs, f).value + last)
  {
    assert (xs + [x])[..|xs + [x]| - 1] == xs;
  }

  /** A pipeline that fails on a prefix fails as a whole, with the same exception. */
  lemma {:induction false} FlatMapPrefixFails<T>(xs: seq<T>, k: nat, f: T -> Result<seq<string>>)
    requires k <= |xs|
    requires FlatMap(xs[..k], f).Err?
    ensures FlatMap(xs, f) == FlatMap(xs[..k], f)
    decreases |xs| - k
  {
    if k < |xs| {
      assert xs[..k + 1] == xs[..k] + [xs[k]];
      assert xs[..k + 1][..k] == xs[..k];
      FlatMapPrefixFails(xs, k + 1, f);
    } else {
      assert xs[..k] == xs;
    }
  }

  /** One step of a loop over `xs`: the next prefix's lines, or the exception of the whole pipeline. */
  lemma FlatMapStep<T>(xs: seq<T>, i: nat, f: T -> Result<seq<string>>)
    requires i < |xs| && FlatMap(xs[..i], f).Ok?
    ensures f(xs[i]).Ok? ==> FlatMap(xs[..i + 1], f) == Ok(FlatMap(xs[..i], f).value + f(xs[i]).value)
    ensures f(xs[i]).Err? ==> FlatMap(xs, f) == Err(f(xs[i]).error)
  {
    assert xs[..i + 1] == xs[..i] + [xs[i]];
    FlatMapSnoc(xs[..i], xs[i], f);
    if f(xs[i]).Err? {
      FlatMapPrefixFails(xs, i + 1, f);
    }
  }

  /** The pipeline fails exactly when one of its steps does. */
  lemma {:induction false} FlatMapFails<T>(xs: seq<T>, f: T -> Result<seq<string>>)
    ensures FlatMap(xs, f).Ok? <==> forall x :: x in xs ==> f(x).Ok?
  {
    if xs != [] {
      var init := xs[..|xs| - 1];
      assert xs == init + [xs[|xs| - 1]];
      FlatMapFails(init, f);
      assert forall x :: x in xs ==> x in init || x == xs[|xs| - 1];
    }
  }

  /** Every emitted line comes from one step, and every step's lines are emitted. */
  lemma {:induction false} FlatMapLines<T>(xs: seq<T>, f: T -> Result<seq<string>>, line: string)
    requires FlatMap(xs, f).Ok?
    ensures line in FlatMap(xs, f).value <==> exists x :: x in xs && f(x).Ok? && line in f(x).value
  {
    if xs != [] {
      var init, last := xs[..|xs| - 1], xs[|xs| - 1];
      assert xs == init + [last];
      FlatMapLines(init, f, line);
      assert forall x :: x in xs <==> x in init || x == last;
    }
  }
}

=== FILE: text.dfy ===
/** Character classes and string helpers with the meaning java.lang.String and java.util.regex give them. */
module Text {
  import opened Wrappers

  predicate StartsWith(s: string, prefix: string)
  {
    |prefix| <= |s| && s[..|prefix|] == prefix
  }

  /** `\d` */
  predicate IsDigit(c: char)
  {
    '0' <= c <= '9'
  }

  /** `[A-Z]` */
  predicate IsUpper(c: char)
  {
    'A' <= c <= 'Z'
  }

  /** `\w`, that is `[a-zA-Z_0-9]` */
  predicate IsWordChar(c: char)
  {
    'a' <= c <= 'z' || 'A' <= c <= 'Z' || '0' <= c <= '9' || c == '_'
  }

  predicate AllWordChars(s: string)
  {
    forall i :: 0 <= i < |s| ==> IsWordChar(s[i])
  }

  /** `String.substring(begin, end)`: throws unless `0 <= begin <= end <= length`. */
  function Substring(s: string, begin: int, end: int): (r: Result<string>)
    ensures r.Ok? <==> 0 <= begin <= end <= |s|
    ensures r.Ok? ==> |r.value| == end - begin && s == s[..begin] + r.value + s[end..]
  {
    if 0 <= begin <= end <= |s| then Ok(s[begin..end])
    else Err(StringIndexOutOfBounds(begin, end, |s|))
  }

  /** Length of the longest prefix of `s` made of digits. */
  function DigitRun(s: string): (n: nat)
    ensures n <= |s|
    ensures forall i :: 0 <= i < n ==> IsDigit(s[i])
    ensures n < |s| ==> !IsDigit(s[n])
  {
    if s != [] && IsDigit(s[0]) then 1 + DigitRun(s[1..]) else 0
  }

  /** Length of the longest prefix of `s` made of upper-case letters. */
  function UpperRun(s: string): (n: nat)
    ensures n <= |s|
    ensures forall i :: 0 <= i < n ==> IsUpper(s[i])
    ensures n < |s| ==> !IsUpper(s[n])
  {
    if s != [] && IsUpper(s[0]) then 1 + UpperRun(s[1..]) else 0
  }

  function DigitChar(d: nat): char
    requires d < 10
  {
    "0123456789"[d]
  }

  /** Decimal text of a natural number, as a Kotlin string template prints an `Int`. */
  function NatToString(n: nat): (s: string)
    ensures |s| >= 1 && forall i :: 0 <= i < |s| ==> IsDigit(s[i])
  {
    if n < 10 then [DigitChar(n)] else NatToString(n / 10) + [DigitChar(n % 10)]
  }

  /** `joinToString(sep)` */
  function Join(parts: seq<string>, sep: string): string
  {
    if parts == [] then ""
    else if |parts| == 1 then parts[0]
    else parts[0] + sep + Join(parts[1..], sep)
  }
}

=== FILE: wrappers.dfy ===
/** Option and Result, and the JVM exceptions the generator can raise. */
module Wrappers {

  datatype Option<+T> = None | Some(value: T)

  /** The exceptions the binding template lets escape while it generates code. */
  datatype Exception =
    | StringIndexOutOfBounds(begin: int, end: int, length: int)
    | IllegalState(message: string)
    | NullPointer

  datatype Result<+T> = Ok(value: T) | Err(error: Exception)
}
